=== FILE: README.md ===
# Product-catalog query translation, in Dafny

This project models the request-to-query layer of a small product-catalog
API that sits in front of a document database.

- **Translation (`MGFuncs` in `mongodb_controller.py`).** A list request's
  `filter`, `include`/`exclude`, `sort`, `page` and `pageSize` are turned into
  query clauses, an aggregation pipeline and pagination metadata.
- **Handler (`POST /products` in `main.py`).** It validates the request body
  (`BodyList`). It turns the reserved `selected` filter key into a match on
  grouped products, and wraps a `product_name` filter in a regex operator.
  It builds the four-stage product pipeline. Finally it renames each returned
  document's `_id` to a string `id`.

Everything is pure and functional.

- JSON-like values are an immutable datatype (`Json.Value`).
- Python dicts are insertion-ordered association lists with distinct keys
  (`Dicts.Dict`). `Put` and `Pop` follow `d[k] = v` and `d.pop(k, None)`.
- Datetimes are microseconds since 0001-01-01, with Python's range.
- Dates follow the proleptic Gregorian calendar, using Python's ordinals.
- Every exception the modelled paths raise is an `Outcomes.Error` inside a `Result`.

These stay outside the model and enter as parameters:

- the database (its count and its documents);
- the date parser;
- today's date;
- `str()` of a database identifier.

Modules, in dependency order:

| module | file | what it holds |
|---|---|---|
| `Outcomes` | outcomes.dfy | `Option`, `Result`, the error causes |
| `Dicts` | dicts.dfy | ordered dicts: lookup, assignment, pop, a failing comprehension |
| `Calendar` | calendar.dfy | dates, ordinals, whole-day shifts, ISO text |
| `Json` | json.dfy | values and Python truthiness |
| `Pagination` | pagination.dfy | `compute_pagination` |
| `Operators` | operators.dfy | `convert_operator_to_mongo_query`, `convert_filter_to_mongo_query`, `convert_end_date_filter` |
| `Projection` | projection.dfy | `convert_projection_to_mongo_query` |
| `Pipeline` | pipeline.dfy | `aggregate_action`'s stage tail, `aggregate_collection` |
| `BoolFields` | bool_fields.dfy | `convert_str_to_bool`, `convert_filter_bool_field` |
| `DateWindow` | date_window.dfy | `preprocessing_date_filter` |
| `Request` | request.dfy | `BodyList` defaults and validation |
| `Products` | products.dfy | `get_products` |

Two behaviours of the code are worth knowing before reading the contracts.

- **Mixed operator dicts do not fail.** `convert_operator_to_mongo_query`
  tests its branches in order (mongodb_controller.py:23-35):
  - any dict holding `ne` becomes `{$ne: v}`, whatever else it holds;
  - a dict holding `regex` and any non-range key becomes a case-insensitive
    `$regex`.

  Only a dict with neither key and a non-range key raises
  (`Operators.InvalidOperatorExactly`).
- **The default page size is 25.** `pageSize`'s field description says the
  default is 12, but the declared default is 25 (main.py:37). The model
  uses 25.

## Model

| member | source | states |
|---|---|---|
| Dicts.Lookup | mongodb_controller.py:117 | `d.get(k)` is `None` exactly when `k` is not a key, and otherwise an entry of `d` under `k` |
| Dicts.Put | mongodb_controller.py:121 | assignment keeps the keys distinct; a new key goes last; an existing key keeps its place |
| Dicts.LookupPut | mongodb_controller.py:121 | after `d[k] = v`, `k` reads `v` and every other key reads what it read before |
| Dicts.Pop | mongodb_controller.py:119 | `d.pop(k, None)` removes exactly `k`; an absent key leaves the dict unchanged; a present key's entry is cut out and the entries before and after it keep their order |
| Dicts.LookupPop | mongodb_controller.py:119 | after the pop, `k` is absent and every other key reads what it read before |
| Dicts.TryMapEntries | mongodb_controller.py:39-42 | a dict comprehension whose value may raise: it succeeds iff every entry does, keeps order and renames keys; otherwise the first failing entry decides the error |
| Pagination.FloorDiv | mongodb_controller.py:10 | Python's `//`: the quotient rounded toward negative infinity, for either sign of divisor |
| Pagination.ComputePagination | mongodb_controller.py:6-16 | no page or page size gives skip 0 and no metadata; otherwise skip is `(page-1)*pageSize`, and the metadata echoes page, page size and total; for a positive total, totalPages is the ceiling of total over page size, at least 1; for zero hits it is 1 |
| Pagination.PageOf | mongodb_controller.py:9-10 | the page that shows item `i` starts at or before `i` and ends after it |
| Pagination.ItemOnExactlyOnePage | mongodb_controller.py:9-10 | the window of page `q` holds item `i` exactly when `q` is that item's page, and that page is at most totalPages |
| Pagination.TotalPagesCountsNonEmptyPages | mongodb_controller.py:10 | with hits, page `q` is within totalPages exactly when its skip is below the total |
| Calendar.NextDay | mongodb_controller.py:133 | the next day is valid and its ordinal is one more |
| Calendar.PrevDay | mongodb_controller.py:132 | the previous day is valid and its ordinal is one less |
| Calendar.ShiftForwardOrdinal | mongodb_controller.py:133 | walking `k` days forward succeeds iff the target ordinal is at most that of 9999-12-31, and lands on that ordinal |
| Calendar.ShiftBackwardOrdinal | mongodb_controller.py:132 | walking `k` days back succeeds iff the target ordinal is at least 1, and lands on that ordinal |
| Calendar.ShiftDays | mongodb_controller.py:132-133 | `date ± timedelta(days=k)` lands `k` ordinals away, or raises `OverflowError` exactly when that leaves the calendar |
| Calendar.PadRoundTrip | mongodb_controller.py:132-133 | a zero-padded number reads back as the number |
| Calendar.FormatIso | mongodb_controller.py:132-133 | `str(date)` is ten characters: four, two and two digits separated by dashes, spelling the year, month and day |
| Calendar.IsoRoundTrip | mongodb_controller.py:132-133 | `str(date)` reads back as the same date |
| Operators.DollarInjective | mongodb_controller.py:27 | prefixing `$` never makes two keys equal |
| Operators.EndOfDay | mongodb_controller.py:123-125 | one day later less one microsecond: as an inclusive `$lte` bound it admits exactly the instants before `t + 1 day`; it raises `OverflowError` exactly when `t + 1 day` is past the last datetime |
| Operators.EndOfDayCoversWholeDay | mongodb_controller.py:124-125 | from midnight, the end-of-day bound admits exactly the instants on that day or before |
| Operators.ConvertBound | mongodb_controller.py:27-29 | a non-string bound is kept; a string succeeds iff it parses and, for `lte`, the day after stays in range; the result lies within the day after the parsed instant; an unparsable text fails with `UnparsableDate`, a move past the last datetime with `OverflowError` |
| Operators.ConvertRange | mongodb_controller.py:25-31 | the range branch succeeds iff every bound converts; the result has the same length and order, with `$`-prefixed keys and converted values; otherwise the first failing bound's error |
| Operators.CaseInsensitive | mongodb_controller.py:32-33 | the regex clause has exactly `$regex` (the pattern) and `$options` `i` |
| Operators.ConvertOperator | mongodb_controller.py:20-35 | dispatch in the code's order: a non-dict passes through; `ne` gives `{$ne: v}` even beside other keys; range keys only (the empty dict included) give the `$`-prefixed bounds, or the range error; otherwise `regex` gives a case-insensitive `$regex`; any other dict is an invalid operator |
| Operators.ConvertFilter | mongodb_controller.py:37-42 | succeeds iff every field's operator converts; the keys are the same, in the same order, and each value is its operator's translation; otherwise the first failing field's error |
| Operators.RangeBoundValues | mongodb_controller.py:25-31 | each translated bound: key gains `$`; a non-string is unchanged; a string is parsed; `lte` becomes the parsed value plus one day less one microsecond, which lies within the following day |
| Operators.RangeTranslationMeaning | mongodb_controller.py:25-31 | for date-string bounds, the translated clause admits exactly the instants the request asks for, with `lte` covering its whole final day |
| Operators.InvalidOperatorExactly | mongodb_controller.py:21-35 | `Invalid filter operator` is raised iff the dict has neither `ne` nor `regex` and some non-range key; the only other errors are parse failures and overflow |
| Operators.RegexAlwaysCaseInsensitive | mongodb_controller.py:32-33 | every translation that yields `$regex` carries `$options: 'i'` |
| Operators.FilterLookup | mongodb_controller.py:39-42 | after a successful translation, each field reads the translation of its operator, and no field is added |
| Projection.FromKeys | mongodb_controller.py:48 | `dict(map(lambda x: (x, v), keys))` maps exactly the listed keys to `v` |
| Projection.BuildProjection | mongodb_controller.py:46-53 | a non-empty include maps each included field to 1, and `_id` to 0 unless included, with nothing else; otherwise exactly the excluded fields map to 0 |
| Projection.ProjectionEmpty | mongodb_controller.py:46-53 | the projection is empty, so no `$project` is appended, exactly when neither an include nor an exclude list is given |
| Json.FalsyValues | mongodb_controller.py:76-83 | the falsy values the `if` tests skip are exactly `None`, `False`, `0`, `""`, `[]` and `{}` |
| Pipeline.OptionalStage | mongodb_controller.py:76-83 | a guarded append adds one stage with that operator exactly when its argument is truthy |
| Pipeline.TailStages | mongodb_controller.py:76-83 | one stage per truthy argument, each a tail operator, in strictly increasing `$sort`, `$skip`, `$limit`, `$project` order |
| Pipeline.TailMembers | mongodb_controller.py:76-83 | each of the four stages is appended exactly when its argument is truthy |
| Pipeline.AppendTail | mongodb_controller.py:75-83 | the caller's pipeline stays a prefix; each stage is appended exactly when its argument is truthy, so a zero skip adds no `$skip`; the appended stages are in the fixed order |
| Pipeline.AggregateCollection | mongodb_controller.py:87-95 | fails iff the filter translation fails, with its error; otherwise the plan is paged: the count runs the built pipeline plus `$count`; the items pipeline extends the built pipeline with `$limit` of the page size, `$skip` iff the page is not the first, `$sort` iff a sort is given, and `$project` iff an include or exclude list is; the metadata reports the page, its size and the count |
| Pipeline.AggregatePlan | mongodb_controller.py:90-94 | a successful plan reports exactly `compute_pagination` of the count and the requested page, and its items pipeline is exactly the caller's pipeline plus the tail `aggregate_action` appends for the body's sort, its projection, that skip and the page size |
| Pipeline.PagedTail | mongodb_controller.py:90-94 | the pagination and the appended tail for a body form the paged plan described for `AggregateCollection`; `$skip` appears exactly when the page is not the first, since the skip `(page-1)*pageSize` is then non-zero |
| BoolFields.Lower | mongodb_controller.py:105 | lower-casing keeps the length and lowers each letter |
| BoolFields.LowerMatchesSpelling | mongodb_controller.py:105-108 | lower-casing gives a lower-case word iff the text spells that word in some letter case |
| BoolFields.StrToBool | mongodb_controller.py:97-113 | a bool as is; `None` as `None`; a string is True or False iff it spells `true` or `false` in any case, else `None`; any other type raises `Invalid value type` |
| BoolFields.ConvertFilterBoolField | mongodb_controller.py:115-121 | raises iff the coercion does; a `None` result removes the field and keeps the others in order; a bool is stored in place, or last when the field was absent; every other field is unchanged |
| DateWindow.DefaultWindow | mongodb_controller.py:130-134 | the window runs from six days before today to the day after, as ISO text; it raises `OverflowError` exactly when either date leaves the calendar |
| DateWindow.PreprocessDateFilter | mongodb_controller.py:127-135 | an absent or `None` date field gets the default window, in place when the key exists with `None` and last when it is absent; a present one leaves the filter unchanged; no other field changes and the key order is kept |
| DateWindow.IsoWindow | mongodb_controller.py:131-134 | the window has exactly the keys `gte` then `lte`, and their texts read back as the two dates |
| DateWindow.TwoBoundTranslation | mongodb_controller.py:25-31 | `{gte: a, lte: b}` of date texts translates to parsed `a` and the end of parsed `b`'s day; overflow is the only error |
| DateWindow.WindowTranslation | mongodb_controller.py:131-134 | the ISO window translates to midnight of its first day and the last microsecond of its last day |
| DateWindow.ClauseOfTwoBounds | mongodb_controller.py:26-31 | `{$gte: lo, $lte: hi}` admits exactly `lo <= t <= hi` |
| DateWindow.DaysBetween | mongodb_controller.py:131-134 | an instant from midnight of `from` to the end of `to` is one whose day lies between them |
| DateWindow.IsoWindowMeaning | mongodb_controller.py:131-134 | the ISO window admits exactly the instants on the days from its first date to its last, both included |
| DateWindow.DefaultWindowMeaning | mongodb_controller.py:129-134 | the default window admits exactly the eight days from today-6 to today+1 |
| DateWindow.DefaultFieldMeaning | mongodb_controller.py:128-135 | with the default field `timestamp` absent or `None`, the preprocessed filter's `timestamp` clause is the default window and admits exactly the eight days from today-6 to today+1 |
| DateWindow.WindowOverflowsAtEnd | mongodb_controller.py:125 | on 9999-12-30 the window is written, but translating its `lte` raises `OverflowError` |
| Request.FieldErrors | main.py:36-37 | names `page` iff page < 1 and `pageSize` iff pageSize < 1 |
| Request.MakeBody | main.py:33-45 | missing fields take defaults 1 and 25 and empty lists or dicts; it succeeds iff both page numbers are at least 1 and include and exclude are not both non-empty; bound errors are reported before the conflict |
| Request.DumpRoundTrip | main.py:33-45 | a dumped body validates back to itself iff it is valid |
| Request.EmptyRequestDefaults | main.py:34-39 | an empty request is page 1 of 25 with no projection, sort or filter |
| Request.BothProjectionsRejected | main.py:44-45 | non-empty include and exclude together are always rejected |
| Products.SelectedClause | main.py:51-57 | `None` gives `{}`; a truthy flag gives `{selected_values: True}`; any other value gives `{selected_values: {$ne: True}}` |
| Products.SelectedFilterMeaning | main.py:54-64 | on a group that holds the set of `selected` flags, the clause keeps every group for no flag, groups with a selected row for a truthy flag, and groups without one for a falsy flag |
| Products.WrapProductName | main.py:85-87 | `product_name` becomes `{regex: v}`; every other field keeps its place and value; without `product_name` the filter is unchanged |
| Products.WrapLookups | main.py:85-87 | the lookup laws of the wrapped filter |
| Products.WrappedNameTranslation | main.py:85-89 | the wrapped filter translates iff every field other than `product_name` does: the name can never make it fail |
| Products.RegexWrapTranslates | main.py:87 | `{regex: v}` translates to a case-insensitive `$regex` on `v` |
| Products.WrappedNameRegex | main.py:85-89 | the wrapped name reaches the database as a case-insensitive `$regex` on the requested value |
| Products.ProductFieldsDistinct | main.py:72-81 | the eight reshaped field names are distinct |
| Products.NewRoot | main.py:71-81 | the reshaped document has exactly the eight product fields, in order, each taken from the group's first document |
| Products.ProductPipeline | main.py:58-84 | four stages: `$match` on the translated filter, `$group` by product, `$match` on the selected clause, `$replaceRoot` |
| Products.RenameId | main.py:92-93 | with `_id`, it is removed and its string form stored as `id`; without it, the item is unchanged; no other field changes |
| Products.PreparedFilter | main.py:51-87 | `selected` is removed, `product_name` is wrapped, every other field is unchanged, and the remaining fields keep their order |
| Products.PlanProducts | main.py:51-89 | fails iff the prepared filter's translation does; otherwise the product pipeline is counted and paged: `$limit` of the page size, `$skip` iff the page is not the first, `$sort` iff a sort is given, `$project` iff an include or exclude list is, and the count as totalItems |
| Products.PlanProductsExact | main.py:89 | the product plan reports exactly `compute_pagination` of the count and the page, and pages the product pipeline with exactly the tail `aggregate_action` appends |
| Products.RenameAll | main.py:90-94 | one output per document, none with `_id`; each renamed as above |
| Products.GetProducts | main.py:47-101 | fails exactly when the plan does, with the plan's own error; otherwise the envelope carries the renamed documents and the plan's pagination, with status true and the fixed detail text |

## Left out

- Process setup is not modelled: the database client, environment loading
  and the CORS middleware (main.py:13-31). This is configuration and I/O.
- Database calls are not modelled. This covers `find`, `count_documents`,
  `aggregate`, `update_one`, and the cursor chaining in `query_action` and
  `query_collection` (mongodb_controller.py:56-71, 84, 92).
  - The aggregated count is the input `counted`.
  - The returned documents are the input `items`.
  - `query_collection`'s direct-find path is not modelled. Its translation
    steps are the same functions.
- `get_product` and `update_selected` (main.py:103-128) are database
  lookups and updates with no logic of their own.
- The date parser is the parameter `parse: string -> Option<Micros>`, with
  `None` where it raises. Time zones and its format rules are not modelled.
  The meaning lemmas assume only that it reads ISO date text as midnight.
- `date.today()` is the parameter `today`.
- `str()` of a database identifier is the parameter `show`.
- FastAPI and pydantic type coercion is not modelled; the request fields
  arrive already typed. Routing and serialisation are left out too.
- Projection.BuildProjection: takes two lists. The `None` defaults of
  `convert_projection_to_mongo_query` (mongodb_controller.py:46) are not
  modelled, nor is the `TypeError` that mapping over a `None` exclude
  raises (line 52). Both callers pass lists (mongodb_controller.py:67, 90).
- Floating-point values (e.g. in `sort`) are not modelled. They only pass
  through.
- BoolFields.Lower: only ASCII letters are lower-cased. Python's
  `str.lower` also folds other Unicode letters.
- Pagination.ComputePagination: requires a non-zero page size where Python
  raises `ZeroDivisionError`. Its only caller passes a validated page size
  of at least 1.
- In-place mutation is not modelled: the dicts the source mutates are
  returned as new values. The alias that `get_products` leaves on
  `body.filter` is not part of the model.
- `convert_filter_bool_field` and `preprocessing_date_filter` are modelled
  on their own. The `POST /products` handler does not call them.

=== FILE: bool_fields.dfy ===
/** `MGFuncs.convert_str_to_bool` and `MGFuncs.convert_filter_bool_field`:
    turning `"true"`/`"false"` text, in any letter case, into booleans. */
module BoolFields {
  import opened Outcomes
  import opened Dicts
  import opened Json

  function LowerChar(c: char): char {
    if 'A' <= c <= 'Z' then (c as int + 32) as char else c
  }

  function UpperChar(c: char): char {
    if 'a' <= c <= 'z' then (c as int - 32) as char else c
  }

  /** `s.lower()` on ASCII letters. */
  function Lower(s: string): (r: string)
    ensures |r| == |s|
    ensures forall i :: 0 <= i < |s| ==> r[i] == LowerChar(s[i])
  {
    seq(|s|, i requires 0 <= i < |s| => LowerChar(s[i]))
  }

  /** `s` spells the lower-case `word` with any letters capitalised. */
  predicate SpellsIgnoringCase(s: string, word: string) {
    && |s| == |word|
    && forall i :: 0 <= i < |s| ==> s[i] == word[i] || s[i] == UpperChar(word[i])
  }

  /** Lower-casing and comparing is spelling the word in some letter case. */
  lemma {:induction false} LowerMatchesSpelling(s: string, word: string)
    requires forall i :: 0 <= i < |word| ==> 'a' <= word[i] <= 'z'
    ensures Lower(s) == word <==> SpellsIgnoringCase(s, word)
  {
    if Lower(s) == word {
      forall i | 0 <= i < |s| ensures s[i] == word[i] || s[i] == UpperChar(word[i]) {
        assert LowerChar(s[i]) == word[i];
      }
    }
    if SpellsIgnoringCase(s, word) {
      forall i | 0 <= i < |s| ensures Lower(s)[i] == word[i] {
        assert s[i] == word[i] || s[i] == UpperChar(word[i]);
      }
    }
  }

  /** `convert_str_to_bool`: a bool as is, `None` as `None`, a string by its
      spelling in any case (`None` for any other text), and `ValueError`
      for every other type. */
  function StrToBool(v: Value): (r: Result<Option<bool>>)
    ensures v.Bool? ==> r == Ok(Some(v.b))
    ensures v.Null? ==> r == Ok(None)
    ensures v.Str? ==> r.Ok?
    ensures v.Str? ==> (r.value == Some(true) <==> SpellsIgnoringCase(v.s, "true"))
    ensures v.Str? ==> (r.value == Some(false) <==> SpellsIgnoringCase(v.s, "false"))
    ensures !(v.Bool? || v.Null? || v.Str?) ==> r == Err(InvalidValueType)
  {
    match v
    case Bool(b) => Ok(Some(b))
    case Null => Ok(None)
    case Str(s) =>
      LowerMatchesSpelling(s, "true");
      LowerMatchesSpelling(s, "false");
      if Lower(s) == "true" then Ok(Some(true))
      else if Lower(s) == "false" then Ok(Some(false))
      else Ok(None)
    case _ => Err(InvalidValueType)
  }

  /** What a coerced field holds afterwards: nothing, or the bool. */
  function AsStored(b: Option<bool>): Option<Value> {
    match b
    case None => None
    case Some(x) => Some(Bool(x))
  }

  /** `convert_filter_bool_field`: the field's value (`None` when absent) is
      coerced; a `None` result removes the field, a bool replaces its value
      in place or, for a new field, adds it last; every other field keeps
      its value and its order, and a coercion error is raised. */
  function ConvertFilterBoolField(body: Dict<Value>, field: string): (r: Result<Dict<Value>>)
    ensures r.Err? <==> StrToBool(Lookup(body, field).GetOr(Null)).Err?
    ensures r.Err? ==> r.error == InvalidValueType
    ensures r.Ok? ==> Lookup(r.value, field) == AsStored(StrToBool(Lookup(body, field).GetOr(Null)).value)
    ensures r.Ok? ==> forall k :: k != field ==> Lookup(r.value, k) == Lookup(body, k)
    ensures r.Ok? && field !in KeysOf(r.value) ==> KeysOf(r.value) == KeysOf(Pop(body, field))
    ensures r.Ok? && field in KeysOf(r.value) ==>
      KeysOf(r.value) == if field in KeysOf(body) then KeysOf(body) else KeysOf(body) + [field]
  {
    match StrToBool(Lookup(body, field).GetOr(Null))
    case Err(e) => Err(e)
    case Ok(None) =>
      forall k { LookupPop(body, field, k); }
      Ok(Pop(body, field))
    case Ok(Some(b)) =>
      forall k { LookupPut(body, field, Bool(b), k); }
      Ok(Put(body, field, Bool(b)))
  }
}

=== FILE: calendar.dfy ===
/** Calendar dates and timestamps with the range and arithmetic of Python's
    `date` and `datetime`: the proleptic Gregorian calendar from 0001-01-01
    to 9999-12-31, day ordinals, whole-day shifts that overflow at both ends,
    and the ISO `YYYY-MM-DD` text that `str(date)` produces. */
module Calendar {
  import opened Outcomes

  datatype Date = Date(year: int, month: int, day: int)

  const MinYear: int := 1
  const MaxYear: int := 9999

  /** The ordinal of 9999-12-31, the last representable date. */
  const MaxOrdinal: int := 3_652_059

  /** Microseconds in one day: `timedelta(days=1)`. */
  const DayMicros: int := 86_400_000_000

  /** The last representable microsecond, 9999-12-31 23:59:59.999999. */
  const MaxMicros: int := MaxOrdinal * DayMicros - 1

  /** A naive `datetime`, as microseconds since 0001-01-01 00:00:00. */
  type Micros = t: int | 0 <= t <= MaxMicros

  predicate IsLeap(y: int) {
    y % 4 == 0 && (y % 100 != 0 || y % 400 == 0)
  }

  function DaysInYear(y: int): int {
    if IsLeap(y) then 366 else 365
  }

  function DaysInMonth(y: int, m: int): int
    requires 1 <= m <= 12
  {
    if m == 2 then (if IsLeap(y) then 29 else 28)
    else if m == 4 || m == 6 || m == 9 || m == 11 then 30
    else 31
  }

  predicate Valid(d: Date) {
    && MinYear <= d.year <= MaxYear
    && 1 <= d.month <= 12
    && 1 <= d.day <= DaysInMonth(d.year, d.month)
  }

  const FirstDate: Date := Date(MinYear, 1, 1)
  const LastDate: Date := Date(MaxYear, 12, 31)

  /** Days in the years before year `y`, by the leap-year rule in closed form. */
  function DaysBeforeYear(y: int): int
    requires y >= 1
  {
    var p := y - 1;
    p * 365 + p / 4 - p / 100 + p / 400
  }

  /** Days in the months of year `y` before month `m`. */
  function DaysBeforeMonth(y: int, m: int): int
    requires 1 <= m <= 12
  {
    var common :=
      if m == 1 then 0 else if m == 2 then 31 else if m == 3 then 59
      else if m == 4 then 90 else if m == 5 then 120 else if m == 6 then 151
      else if m == 7 then 181 else if m == 8 then 212 else if m == 9 then 243
      else if m == 10 then 273 else if m == 11 then 304 else 334;
    common + (if m > 2 && IsLeap(y) then 1 else 0)
  }

  /** `date.toordinal()`: 0001-01-01 is day 1. */
  function ToOrdinal(d: Date): int
    requires d.year >= 1 && 1 <= d.month <= 12
  {
    DaysBeforeYear(d.year) + DaysBeforeMonth(d.year, d.month) + d.day
  }

  /** One more month adds exactly that month's days. */
  lemma MonthStep(y: int, m: int)
    requires 1 <= m < 12
    ensures DaysBeforeMonth(y, m + 1) == DaysBeforeMonth(y, m) + DaysInMonth(y, m)
  {
  }

  /** Crossing from `p` to `p + 1` bumps `p / n` exactly when `n` divides `p + 1`. */
  lemma DivStep(p: int, n: int)
    requires p >= 0 && (n == 4 || n == 100 || n == 400)
    ensures (p + 1) / n - p / n == if (p + 1) % n == 0 then 1 else 0
  {
    if n == 4 {
      assert p == 4 * (p / 4) + p % 4;
    } else if n == 100 {
      assert p == 100 * (p / 100) + p % 100;
    } else {
      assert p == 400 * (p / 400) + p % 400;
    }
  }

  /** One more year adds exactly that year's days. */
  lemma YearStep(y: int)
    requires y >= 1
    ensures DaysBeforeYear(y + 1) == DaysBeforeYear(y) + DaysInYear(y)
  {
    var p := y - 1;
    DivStep(p, 4);
    DivStep(p, 100);
    DivStep(p, 400);
    DivisorChain(y);
    assert DaysBeforeYear(y + 1) - DaysBeforeYear(y) == 365 + (y / 4 - p / 4) - (y / 100 - p / 100) + (y / 400 - p / 400);
  }

  /** A multiple of 400 is one of 100, and a multiple of 100 is one of 4. */
  lemma DivisorChain(y: int)
    ensures y % 400 == 0 ==> y % 100 == 0
    ensures y % 100 == 0 ==> y % 4 == 0
  {
    if y % 100 == 0 {
      assert y == 4 * (25 * (y / 100));
    }
    if y % 400 == 0 {
      assert y == 100 * (4 * (y / 400));
    }
  }

  lemma {:induction false} YearMonotone(a: int, b: int)
    requires 1 <= a <= b
    ensures DaysBeforeYear(a) <= DaysBeforeYear(b)
  {
    if a < b {
      YearMonotone(a, b - 1);
      YearStep(b - 1);
    }
  }

  /** 0001-01-01 is day 1. */
  lemma FirstOrdinal()
    ensures ToOrdinal(FirstDate) == 1
  {
    assert DaysBeforeYear(1) == 0;
  }

  /** 9999-12-31 is day `MaxOrdinal`. */
  lemma LastOrdinal()
    ensures ToOrdinal(LastDate) == MaxOrdinal
  {
    assert DaysBeforeYear(MaxYear) == 3_651_694 by {
      var p := MaxYear - 1;
      assert p / 4 == 2499 && p / 100 == 99 && p / 400 == 24;
    }
    assert DaysBeforeMonth(MaxYear, 12) == 334 by {
      assert MaxYear % 4 == 3;
    }
  }

  /** Every valid date has an ordinal between 1 and `MaxOrdinal`. */
  lemma OrdinalRange(d: Date)
    requires Valid(d)
    ensures 1 <= ToOrdinal(d) <= MaxOrdinal
  {
    YearMonotone(1, d.year);
    YearMonotone(d.year + 1, MaxYear + 1);
    YearStep(d.year);
    assert DaysBeforeYear(MaxYear + 1) == MaxOrdinal;
    assert DaysBeforeMonth(d.year, d.month) + DaysInMonth(d.year, d.month) <= DaysInYear(d.year);
  }

  /** The date after `d`. */
  function NextDay(d: Date): (r: Date)
    requires Valid(d) && d != LastDate
    ensures Valid(r) && ToOrdinal(r) == ToOrdinal(d) + 1
  {
    if d.day < DaysInMonth(d.year, d.month) then Date(d.year, d.month, d.day + 1)
    else if d.month < 12 then
      MonthStep(d.year, d.month);
      Date(d.year, d.month + 1, 1)
    else
      YearStep(d.year);
      Date(d.year + 1, 1, 1)
  }

  /** The date before `d`. */
  function PrevDay(d: Date): (r: Date)
    requires Valid(d) && d != FirstDate
    ensures Valid(r) && ToOrdinal(r) == ToOrdinal(d) - 1
  {
    if d.day > 1 then Date(d.year, d.month, d.day - 1)
    else if d.month > 1 then
      MonthStep(d.year, d.month - 1);
      Date(d.year, d.month - 1, DaysInMonth(d.year, d.month - 1))
    else
      YearStep(d.year - 1);
      Date(d.year - 1, 12, 31)
  }

  /** `r` is the date with ordinal `n` when that ordinal is at least 1,
      and nothing otherwise. */
  predicate LandsOn(r: Option<Date>, n: int) {
    && (r.Some? <==> 1 <= n)
    && (r.Some? ==> Valid(r.value) && ToOrdinal(r.value) == n)
  }

  /** The date after `d`, if there is one. */
  function Tomorrow(d: Date): (r: Option<Date>)
    requires Valid(d)
    ensures r.None? <==> d == LastDate
    ensures r.Some? ==> Valid(r.value) && ToOrdinal(r.value) == ToOrdinal(d) + 1
  {
    if d == LastDate then None else Some(NextDay(d))
  }

  /** The date `k` days after `d`; `None` once the walk passes 9999-12-31. */
  function ShiftForward(d: Date, k: nat): Option<Date>
    requires Valid(d)
    decreases k
  {
    if k == 0 then Some(d)
    else
      match Tomorrow(d)
      case None => None
      case Some(n) => ShiftForward(n, k - 1)
  }

  /** `r` is the date with ordinal `n` when that ordinal is at most
      `MaxOrdinal`, and nothing otherwise. */
  predicate LandsBelowMax(r: Option<Date>, n: int) {
    && (r.Some? <==> n <= MaxOrdinal)
    && (r.Some? ==> Valid(r.value) && ToOrdinal(r.value) == n)
  }

  /** The forward walk succeeds exactly when the target ordinal exists, and
      then lands on it. */
  lemma {:induction false} ShiftForwardOrdinal(d: Date, k: nat)
    requires Valid(d)
    ensures LandsBelowMax(ShiftForward(d, k), ToOrdinal(d) + k)
    decreases k, 1
  {
    if k == 0 {
      OrdinalRange(d);
      assert ShiftForward(d, k) == Some(d);
    } else if d == LastDate {
      assert ShiftForward(d, k) == None by { assert Tomorrow(d) == None; }
      assert ToOrdinal(d) + k > MaxOrdinal by { LastOrdinal(); }
    } else {
      ForwardStep(d, k);
    }
  }

  /** One step of the forward walk: from `d` it continues from the day after. */
  lemma {:induction false} ForwardStep(d: Date, k: nat)
    requires Valid(d) && d != LastDate && k >= 1
    ensures LandsBelowMax(ShiftForward(d, k), ToOrdinal(d) + k)
    decreases k, 0
  {
    var n := Tomorrow(d).value;
    assert ShiftForward(d, k) == ShiftForward(n, k - 1);
    assert ToOrdinal(n) + (k - 1) == ToOrdinal(d) + k;
    ShiftForwardOrdinal(n, k - 1);
  }

  /** The date before `d`, if there is one. */
  function Yesterday(d: Date): (r: Option<Date>)
    requires Valid(d)
    ensures r.None? <==> d == FirstDate
    ensures r.Some? ==> Valid(r.value) && ToOrdinal(r.value) == ToOrdinal(d) - 1
  {
    if d == FirstDate then None else Some(PrevDay(d))
  }

  /** The date `k` days before `d`; `None` once the walk passes 0001-01-01. */
  function ShiftBackward(d: Date, k: nat): Option<Date>
    requires Valid(d)
    decreases k
  {
    if k == 0 then Some(d)
    else
      match Yesterday(d)
      case None => None
      case Some(p) => ShiftBackward(p, k - 1)
  }

  /** The backward walk succeeds exactly when the target ordinal exists,
      and then lands on it. */
  lemma {:induction false} ShiftBackwardOrdinal(d: Date, k: nat)
    requires Valid(d)
    ensures LandsOn(ShiftBackward(d, k), ToOrdinal(d) - k)
    decreases k, 1
  {
    if k == 0 {
      OrdinalRange(d);
      assert ShiftBackward(d, k) == Some(d);
    } else if d == FirstDate {
      assert ShiftBackward(d, k) == None by { assert Yesterday(d) == None; }
      assert ToOrdinal(d) - k < 1 by { FirstOrdinal(); }
    } else {
      BackwardStep(d, k);
    }
  }

  /** One step of the backward walk: from `d` it continues from the day before. */
  lemma {:induction false} BackwardStep(d: Date, k: nat)
    requires Valid(d) && d != FirstDate && k >= 1
    ensures LandsOn(ShiftBackward(d, k), ToOrdinal(d) - k)
    decreases k, 0
  {
    var p := Yesterday(d).value;
    assert ShiftBackward(d, k) == ShiftBackward(p, k - 1);
    assert ToOrdinal(p) - (k - 1) == ToOrdinal(d) - k;
    ShiftBackwardOrdinal(p, k - 1);
  }

  /** `d + timedelta(days=k)`: the date `k` days later (earlier when `k` is
      negative), or `OverflowError` when that leaves the representable range. */
  function ShiftDays(d: Date, k: int): (r: Result<Date>)
    requires Valid(d)
    ensures r.Ok? <==> 1 <= ToOrdinal(d) + k <= MaxOrdinal
    ensures r.Ok? ==> Valid(r.value) && ToOrdinal(r.value) == ToOrdinal(d) + k
    ensures r.Err? ==> r.error == DateOverflow
  {
    OrdinalRange(d);
    var moved :=
      if k >= 0 then ShiftForward(d, k) else ShiftBackward(d, -k);
    if k >= 0 then
      ShiftForwardOrdinal(d, k);
      if moved.Some? then Ok(moved.value) else Err(DateOverflow)
    else
      ShiftBackwardOrdinal(d, -k);
      if moved.Some? then Ok(moved.value) else Err(DateOverflow)
  }

  /** Midnight at the start of a valid date. */
  function Midnight(d: Date): (t: Micros)
    requires Valid(d)
    ensures t % DayMicros == 0
    ensures DayOf(t) == ToOrdinal(d)
  {
    OrdinalRange(d);
    WholeDays(ToOrdinal(d) - 1);
    (ToOrdinal(d) - 1) * DayMicros
  }

  /** A whole number of days, in microseconds, is a multiple of a day that
      falls on the start of day `q + 1`. */
  lemma WholeDays(q: nat)
    ensures (q * DayMicros) % DayMicros == 0
    ensures (q * DayMicros) / DayMicros == q
  {
  }

  /** The ordinal of the date a timestamp falls on. */
  function DayOf(t: int): int {
    t / DayMicros + 1
  }

  // ISO text

  function Pow10(w: nat): nat {
    if w == 0 then 1 else 10 * Pow10(w - 1)
  }

  predicate IsDigit(c: char) {
    '0' <= c <= '9'
  }

  predicate AllDigits(s: string) {
    forall i :: 0 <= i < |s| ==> IsDigit(s[i])
  }

  /** `"%0*d" % (width, n)` for an `n` that fits in `width` digits. */
  function Pad(n: nat, width: nat): (s: string)
    ensures |s| == width && AllDigits(s)
  {
    if width == 0 then []
    else Pad(n / 10, width - 1) + [('0' as int + n % 10) as char]
  }

  /** The number a string of decimal digits spells. */
  function DigitsValue(s: string): nat
    requires AllDigits(s)
  {
    if s == [] then 0
    else DigitsValue(s[..|s| - 1]) * 10 + (s[|s| - 1] as int - '0' as int)
  }

  /** Reading back a padded number gives the number. */
  lemma {:induction false} PadRoundTrip(n: nat, width: nat)
    requires n < Pow10(width)
    ensures DigitsValue(Pad(n, width)) == n
  {
    if width > 0 {
      var s := Pad(n, width);
      assert s[..|s| - 1] == Pad(n / 10, width - 1);
      assert s[|s| - 1] as int - '0' as int == n % 10;
      assert n / 10 < Pow10(width - 1);
      PadRoundTrip(n / 10, width - 1);
    }
  }

  /** `str(d)`: the ISO `YYYY-MM-DD` form. */
  function FormatIso(d: Date): (s: string)
    requires Valid(d)
    ensures |s| == 10 && s[4] == '-' && s[7] == '-'
    ensures AllDigits(s[..4]) && AllDigits(s[5..7]) && AllDigits(s[8..])
    ensures DigitsValue(s[..4]) == d.year && DigitsValue(s[5..7]) == d.month && DigitsValue(s[8..]) == d.day
  {
    var s := Pad(d.year, 4) + "-" + Pad(d.month, 2) + "-" + Pad(d.day, 2);
    assert s[..4] == Pad(d.year, 4);
    assert s[5..7] == Pad(d.month, 2);
    assert s[8..] == Pad(d.day, 2);
    PadRoundTrip(d.year, 4);
    PadRoundTrip(d.month, 2);
    PadRoundTrip(d.day, 2);
    s
  }

  /** Reads the exact `YYYY-MM-DD` shape back into a date. */
  function ParseIso(s: string): Option<Date> {
    if |s| == 10 && s[4] == '-' && s[7] == '-'
       && AllDigits(s[..4]) && AllDigits(s[5..7]) && AllDigits(s[8..])
    then Some(Date(DigitsValue(s[..4]), DigitsValue(s[5..7]), DigitsValue(s[8..])))
    else None
  }

  /** `str(d)` loses nothing: the ISO text reads back as the same date. */
  lemma IsoRoundTrip(d: Date)
    requires Valid(d)
    ensures ParseIso(FormatIso(d)) == Some(d)
  {
  }
}

=== FILE: date_window.dfy ===
/** `MGFuncs.preprocessing_date_filter`: a filter without a date bound gets
    a default window, from six days before today to the day after, written
    as ISO date text for the operator translation to parse. */
module DateWindow {
  import opened Outcomes
  import opened Dicts
  import opened Calendar
  import opened Json
  import opened Operators

  /** The date field used when the caller names none. */
  const DefaultDateField: string := "timestamp"

  /** `{'gte': str(today - 6 days), 'lte': str(today + 1 day)}`, or
      `OverflowError` when either date leaves the calendar. */
  function DefaultWindow(today: Date): (r: Result<Value>)
    requires Valid(today)
    ensures r.Ok? <==> 7 <= ToOrdinal(today) <= MaxOrdinal - 1
    ensures r.Err? ==> r.error == DateOverflow
    ensures r.Ok? ==> WindowBetween(r.value, ToOrdinal(today) - 6, ToOrdinal(today) + 1)
  {
    OrdinalRange(today);
    match ShiftDays(today, -6)
    case Err(e) => Err(e)
    case Ok(from) =>
      match ShiftDays(today, 1)
      case Err(e) => Err(e)
      case Ok(to) =>
        var w := IsoWindow(from, to);
        assert WindowBetween(w, ToOrdinal(today) - 6, ToOrdinal(today) + 1);
        Ok(w)
  }

  /** `{'gte': str(from), 'lte': str(to)}`: a lower and an upper bound,
      in that order, whose texts read back as the two dates. */
  function IsoWindow(from: Date, to: Date): (w: Value)
    requires Valid(from) && Valid(to)
    ensures w.Obj? && KeysOf(w.fields) == ["gte", "lte"]
    ensures Lookup(w.fields, "gte").Some? && Lookup(w.fields, "gte").value.Str?
    ensures Lookup(w.fields, "lte").Some? && Lookup(w.fields, "lte").value.Str?
    ensures ParseIso(Lookup(w.fields, "gte").value.s) == Some(from)
    ensures ParseIso(Lookup(w.fields, "lte").value.s) == Some(to)
  {
    IsoRoundTrip(from);
    IsoRoundTrip(to);
    var fields := [("gte", Str(FormatIso(from))), ("lte", Str(FormatIso(to)))];
    assert KeysOf(fields) == ["gte", "lte"];
    assert Lookup(fields, "gte") == Some(fields[0].1);
    assert Lookup(fields, "lte") == Some(fields[1].1) by { assert Lookup(fields[1..], "lte") == Some(fields[1].1); }
    Obj(fields)
  }

  /** `w` is the ISO window between the dates with ordinals `first` and `last`. */
  ghost predicate WindowBetween(w: Value, first: int, last: int) {
    exists from, to :: Valid(from) && Valid(to) && ToOrdinal(from) == first && ToOrdinal(to) == last
      && w == IsoWindow(from, to)
  }

  /** `preprocessing_date_filter`: when the date field is absent or `None`
      it receives the default window, in place or, when absent, as the last
      field; otherwise the filter is returned as it was. No other field
      changes and the field order is kept. */
  function PreprocessDateFilter(filter: Dict<Value>, dateField: string, today: Date): (r: Result<Dict<Value>>)
    requires Valid(today)
    ensures Lookup(filter, dateField).Some? && Lookup(filter, dateField).value != Null ==> r == Ok(filter)
    ensures Lookup(filter, dateField).GetOr(Null) == Null ==>
      && (r.Ok? <==> 7 <= ToOrdinal(today) <= MaxOrdinal - 1)
      && (r.Err? ==> r.error == DateOverflow)
      && (r.Ok? ==> Lookup(r.value, dateField).Some?
                    && WindowBetween(Lookup(r.value, dateField).value, ToOrdinal(today) - 6, ToOrdinal(today) + 1))
    ensures r.Ok? ==> forall k :: k != dateField ==> Lookup(r.value, k) == Lookup(filter, k)
    ensures r.Ok? ==> KeysOf(r.value) == if dateField in KeysOf(filter) then KeysOf(filter)
                                         else KeysOf(filter) + [dateField]
  {
    if Lookup(filter, dateField).GetOr(Null) != Null then Ok(filter)
    else
      match DefaultWindow(today)
      case Err(e) => Err(e)
      case Ok(w) =>
        forall k { LookupPut(filter, dateField, w, k); }
        Ok(Put(filter, dateField, w))
  }

  /** With the default date field `timestamp` absent or `None`, the
      preprocessed filter carries a `timestamp` clause that admits exactly
      the eight days from six days before today to the day after. */
  lemma DefaultFieldMeaning(filter: Dict<Value>, today: Date, parse: DateParser, t: Micros)
    requires Valid(today) && 7 <= ToOrdinal(today) <= MaxOrdinal - 2
    requires ReadsIsoAsMidnight(parse)
    requires Lookup(filter, DefaultDateField).GetOr(Null) == Null
    ensures var r := PreprocessDateFilter(filter, DefaultDateField, today);
      && r.Ok?
      && Lookup(r.value, DefaultDateField) == Some(DefaultWindow(today).value)
      && ConvertOperator(Lookup(r.value, DefaultDateField).value, parse).Ok?
      && (ClauseAdmits(ConvertOperator(Lookup(r.value, DefaultDateField).value, parse).value.fields, t)
          <==> ToOrdinal(today) - 6 <= DayOf(t) <= ToOrdinal(today) + 1)
  {
    LookupPut(filter, DefaultDateField, DefaultWindow(today).value, DefaultDateField);
    DefaultWindowMeaning(today, parse, t);
  }

  /** The parser reads every ISO date text as midnight of that date. */
  ghost predicate ReadsIsoAsMidnight(parse: DateParser) {
    forall d :: Valid(d) ==> parse(FormatIso(d)) == Some(Midnight(d))
  }

  lemma DayBoundary(t: Micros, n: int)
    ensures n * DayMicros <= t <==> n <= t / DayMicros
  {
    assert t == DayMicros * (t / DayMicros) + t % DayMicros;
    if n <= t / DayMicros {
      assert n * DayMicros <= (t / DayMicros) * DayMicros;
    } else {
      assert n * DayMicros >= (t / DayMicros + 1) * DayMicros;
    }
  }

  /** A `{gte: a, lte: b}` operator of texts translates to the parsed `a`
      and the end of the day of the parsed `b`. */
  lemma TwoBoundTranslation(a: string, b: string, parse: DateParser)
    requires parse(a).Some? && parse(b).Some?
    ensures var w := Obj([("gte", Str(a)), ("lte", Str(b))]);
      && (ConvertOperator(w, parse).Ok? <==> EndOfDay(parse(b).value).Ok?)
      && (ConvertOperator(w, parse).Err? ==> ConvertOperator(w, parse).error == DateOverflow)
      && (ConvertOperator(w, parse).Ok? ==>
            ConvertOperator(w, parse).value
            == Obj([("$gte", DateTime(parse(a).value)), ("$lte", DateTime(EndOfDay(parse(b).value).value))]))
  {
    var w := Obj([("gte", Str(a)), ("lte", Str(b))]);
    assert IsRangeOperator(w.fields);
    assert Dollar("gte") == "$gte" && Dollar("lte") == "$lte";
    if ConvertOperator(w, parse).Ok? {
      var g := ConvertOperator(w, parse).value.fields;
      RangeBoundValues(w.fields, parse, 0);
      RangeBoundValues(w.fields, parse, 1);
      assert g == [g[0], g[1]];
    } else {
      assert ConvertBound("gte", Str(a), parse).Ok?;
    }
  }

  /** The ISO window between two dates, read by a parser that takes ISO
      dates as midnight, admits exactly the instants on the days from the
      first date to the second, both included. */
  lemma IsoWindowMeaning(from: Date, to: Date, parse: DateParser, t: Micros)
    requires Valid(from) && Valid(to) && ToOrdinal(to) < MaxOrdinal
    requires ReadsIsoAsMidnight(parse)
    ensures ConvertOperator(IsoWindow(from, to), parse).Ok?
    ensures ClauseAdmits(ConvertOperator(IsoWindow(from, to), parse).value.fields, t)
            <==> ToOrdinal(from) <= DayOf(t) <= ToOrdinal(to)
  {
    WindowTranslation(from, to, parse);
    ClauseOfTwoBounds(Midnight(from), Midnight(to) + DayMicros - 1, t);
    DaysBetween(from, to, t);
  }

  /** The ISO window translates to midnight of `from` and the last instant of `to`. */
  lemma WindowTranslation(from: Date, to: Date, parse: DateParser)
    requires Valid(from) && Valid(to) && ToOrdinal(to) < MaxOrdinal
    requires ReadsIsoAsMidnight(parse)
    ensures ConvertOperator(IsoWindow(from, to), parse)
            == Ok(Obj([("$gte", DateTime(Midnight(from))), ("$lte", DateTime(Midnight(to) + DayMicros - 1))]))
  {
    var a, b := FormatIso(from), FormatIso(to);
    assert parse(a) == Some(Midnight(from)) && parse(b) == Some(Midnight(to));
    EndOfMidnight(to);
    TwoBoundTranslation(a, b, parse);
  }

  /** A clause of a lower and an upper inclusive bound admits the instants between them. */
  lemma ClauseOfTwoBounds(lo: Micros, hi: Micros, t: Micros)
    ensures ClauseAdmits([("$gte", DateTime(lo)), ("$lte", DateTime(hi))], t) <==> lo <= t <= hi
  {
    var c := [("$gte", DateTime(lo)), ("$lte", DateTime(hi))];
    assert ClauseAdmits(c, t) <==> BoundAdmits(c[0].0, c[0].1, t) && BoundAdmits(c[1].0, c[1].1, t);
  }

  /** Midnight of any date before the last can be moved to the end of its day. */
  lemma EndOfMidnight(d: Date)
    requires Valid(d) && ToOrdinal(d) < MaxOrdinal
    ensures EndOfDay(Midnight(d)) == Ok(Midnight(d) + DayMicros - 1)
  {
    assert Midnight(d) + DayMicros == ToOrdinal(d) * DayMicros;
  }

  /** An instant lies from midnight of `from` to the end of `to` exactly
      when its day is one of the days from `from` to `to`. */
  lemma DaysBetween(from: Date, to: Date, t: Micros)
    requires Valid(from) && Valid(to)
    ensures Midnight(from) <= t < Midnight(to) + DayMicros <==> ToOrdinal(from) <= DayOf(t) <= ToOrdinal(to)
  {
    assert Midnight(to) + DayMicros == ToOrdinal(to) * DayMicros;
    DayBoundary(t, ToOrdinal(from) - 1);
    DayBoundary(t, ToOrdinal(to));
  }

  /** With a parser that reads ISO dates as midnight, the default window
      admits a timestamp exactly when it falls on one of the eight days from
      six days before `today` to the day after `today`, both included. */
  lemma DefaultWindowMeaning(today: Date, parse: DateParser, t: Micros)
    requires Valid(today) && 7 <= ToOrdinal(today) <= MaxOrdinal - 2
    requires ReadsIsoAsMidnight(parse)
    ensures DefaultWindow(today).Ok?
    ensures ConvertOperator(DefaultWindow(today).value, parse).Ok?
    ensures ClauseAdmits(ConvertOperator(DefaultWindow(today).value, parse).value.fields, t)
            <==> ToOrdinal(today) - 6 <= DayOf(t) <= ToOrdinal(today) + 1
  {
    assert WindowBetween(DefaultWindow(today).value, ToOrdinal(today) - 6, ToOrdinal(today) + 1);
    var from, to :| Valid(from) && Valid(to) && ToOrdinal(from) == ToOrdinal(today) - 6
      && ToOrdinal(to) == ToOrdinal(today) + 1 && DefaultWindow(today).value == IsoWindow(from, to);
    IsoWindowMeaning(from, to, parse, t);
  }

  /** On the last day but one of the calendar (9999-12-30) the window
      itself can be written, but its `lte` bound cannot be moved to the end
      of its day: translating it raises `OverflowError`. */
  lemma WindowOverflowsAtEnd(today: Date, parse: DateParser)
    requires Valid(today) && ToOrdinal(today) == MaxOrdinal - 1
    requires ReadsIsoAsMidnight(parse)
    ensures DefaultWindow(today).Ok?
    ensures ConvertOperator(DefaultWindow(today).value, parse) == Err(DateOverflow)
  {
    assert WindowBetween(DefaultWindow(today).value, ToOrdinal(today) - 6, ToOrdinal(today) + 1);
    var from, to :| Valid(from) && Valid(to) && ToOrdinal(from) == ToOrdinal(today) - 6
      && ToOrdinal(to) == ToOrdinal(today) + 1 && DefaultWindow(today).value == IsoWindow(from, to);
    var a, b := FormatIso(from), FormatIso(to);
    assert parse(a) == Some(Midnight(from)) && parse(b) == Some(Midnight(to));
    TwoBoundTranslation(a, b, parse);
    assert EndOfDay(Midnight(to)).Err?;
  }
}

=== FILE: dicts.dfy ===
/** Python dictionaries as insertion-ordered association lists with distinct
    keys, and the three dictionary operations the request path uses:
    `d.get(k)`, `d[k] = v` and `d.pop(k)`. */
module Dicts {
  import opened Outcomes

  /** The keys of an association list, in insertion order. */
  function KeysOf<V>(d: seq<(string, V)>): (ks: seq<string>)
    ensures |ks| == |d|
    ensures forall i :: 0 <= i < |d| ==> ks[i] == d[i].0
  {
    seq(|d|, i requires 0 <= i < |d| => d[i].0)
  }

  predicate Distinct(ks: seq<string>) {
    forall i, j :: 0 <= i < j < |ks| ==> ks[i] != ks[j]
  }

  /** A dictionary: no key occurs twice. */
  type Dict<V> = d: seq<(string, V)> | Distinct(KeysOf(d)) witness []

  /** `d.get(k)`: the value stored under `k`, if any. */
  function Lookup<V>(d: seq<(string, V)>, k: string): (r: Option<V>)
    ensures r.None? <==> k !in KeysOf(d)
    ensures r.Some? ==> (k, r.value) in d
  {
    if d == [] then None
    else if d[0].0 == k then Some(d[0].1)
    else
      assert KeysOf(d) == [d[0].0] + KeysOf(d[1..]);
      Lookup(d[1..], k)
  }

  /** In a dictionary, every entry is what a lookup of its key finds. */
  lemma {:induction false} LookupEntry<V>(d: seq<(string, V)>, i: int)
    requires Distinct(KeysOf(d))
    requires 0 <= i < |d|
    ensures Lookup(d, d[i].0) == Some(d[i].1)
  {
    if i > 0 {
      assert d[0].0 == KeysOf(d)[0] != KeysOf(d)[i] == d[i].0;
      assert KeysOf(d[1..]) == KeysOf(d)[1..];
      LookupEntry(d[1..], i - 1);
    }
  }

  /** `d[k] = v`: an existing key keeps its position, a new key goes last. */
  function Put<V>(d: seq<(string, V)>, k: string, v: V): (r: seq<(string, V)>)
    ensures k in KeysOf(d) ==> KeysOf(r) == KeysOf(d)
    ensures k !in KeysOf(d) ==> KeysOf(r) == KeysOf(d) + [k]
    ensures Distinct(KeysOf(d)) ==> Distinct(KeysOf(r))
  {
    if d == [] then [(k, v)]
    else
      KeysOfCons(d[0], d[1..]);
      assert [d[0]] + d[1..] == d;
      DistinctCons(d[0].0, KeysOf(d[1..]));
      if d[0].0 == k then
        KeysOfCons((k, v), d[1..]);
        [(k, v)] + d[1..]
      else
        var rest := Put(d[1..], k, v);
        KeysOfCons(d[0], rest);
        DistinctCons(d[0].0, KeysOf(rest));
        assert k !in KeysOf(d) ==> KeysOf(rest) == KeysOf(d[1..]) + [k];
        ConsSnoc(d[0].0, KeysOf(d[1..]), k);
        [d[0]] + rest
  }

  /** After `d[k] = v`, `k` holds `v` and every other key holds what it held. */
  lemma {:induction false} LookupPut<V>(d: seq<(string, V)>, k: string, v: V, k': string)
    ensures Lookup(Put(d, k, v), k') == if k' == k then Some(v) else Lookup(d, k')
  {
    if d != [] && d[0].0 != k {
      assert Put(d, k, v)[1..] == Put(d[1..], k, v);
      LookupPut(d[1..], k, v, k');
    } else if d != [] {
      assert Put(d, k, v)[1..] == d[1..];
    }
  }

  /** `d.pop(k, None)` for its effect on `d`: every entry under `k` goes,
      the others stay in order. */
  function Pop<V>(d: seq<(string, V)>, k: string): (r: seq<(string, V)>)
    ensures forall j :: j in KeysOf(r) <==> j in KeysOf(d) && j != k
    ensures k !in KeysOf(d) ==> r == d
    ensures Distinct(KeysOf(d)) ==> Distinct(KeysOf(r))
    ensures Distinct(KeysOf(d)) && k in KeysOf(d) ==> |r| == |d| - 1
    ensures Distinct(KeysOf(d)) && k in KeysOf(d) ==> exists i :: RemovedAt(d, k, i, r)
  {
    if d == [] then []
    else
      var rest := Pop(d[1..], k);
      KeysOfCons(d[0], d[1..]);
      assert [d[0]] + d[1..] == d;
      DistinctCons(d[0].0, KeysOf(d[1..]));
      if d[0].0 == k then
        assert Distinct(KeysOf(d)) ==> RemovedAt(d, k, 0, rest);
        rest
      else
        KeysOfCons(d[0], rest);
        DistinctCons(d[0].0, KeysOf(rest));
        assert Distinct(KeysOf(d)) && k in KeysOf(d) ==> exists i :: RemovedAt(d, k, i, [d[0]] + rest) by {
          if Distinct(KeysOf(d)) && k in KeysOf(d) {
            var i :| RemovedAt(d[1..], k, i, rest);
            RemovedBehindHead(d, k, i, rest);
          }
        }
        [d[0]] + rest
  }

  /** `r` is `d` without its entry `i`, whose key is `k`: the entries
      before and after it keep their order. */
  ghost predicate RemovedAt<V>(d: seq<(string, V)>, k: string, i: int, r: seq<(string, V)>) {
    0 <= i < |d| && d[i].0 == k && r == d[..i] + d[i + 1..]
  }

  /** Removing entry `i` of the tail is removing entry `i + 1` of the whole. */
  lemma RemovedBehindHead<V>(d: seq<(string, V)>, k: string, i: int, rest: seq<(string, V)>)
    requires d != [] && RemovedAt(d[1..], k, i, rest)
    ensures RemovedAt(d, k, i + 1, [d[0]] + rest)
  {
    assert d[..i + 1] == [d[0]] + d[1..][..i];
    assert d[i + 2..] == d[1..][i + 1..];
  }

  lemma ConsSnoc<T>(x: T, s: seq<T>, y: T)
    ensures [x] + (s + [y]) == ([x] + s) + [y]
  {
  }

  lemma KeysOfCons<V>(e: (string, V), d: seq<(string, V)>)
    ensures KeysOf([e] + d) == [e.0] + KeysOf(d)
  {
  }

  /** A key list with a key in front is distinct exactly when the rest is
      and does not hold that key. */
  lemma DistinctCons(x: string, ks: seq<string>)
    ensures Distinct([x] + ks) <==> x !in ks && Distinct(ks)
  {
    var xs := [x] + ks;
    if x !in ks && Distinct(ks) {
      forall i, j | 0 <= i < j < |xs| ensures xs[i] != xs[j] {
        if i > 0 { assert xs[i] == ks[i - 1] && xs[j] == ks[j - 1]; }
        else { assert xs[j] == ks[j - 1]; }
      }
    }
    if Distinct(xs) {
      forall i, j | 0 <= i < j < |ks| ensures ks[i] != ks[j] {
        assert ks[i] == xs[i + 1] && ks[j] == xs[j + 1];
      }
      forall j | 0 <= j < |ks| ensures ks[j] != x {
        assert xs[0] == x && ks[j] == xs[j + 1];
        assert xs[0] != xs[j + 1];
      }
    }
  }

  /** After `d.pop(k)`, `k` is absent and every other key holds what it held. */
  lemma {:induction false} LookupPop<V>(d: seq<(string, V)>, k: string, k': string)
    ensures Lookup(Pop(d, k), k') == if k' == k then None else Lookup(d, k')
  {
    if d != [] {
      LookupPop(d[1..], k, k');
      if d[0].0 != k {
        assert Pop(d, k)[1..] == Pop(d[1..], k);
      }
    }
  }

  /** Entry `i` is the first whose `f` fails. */
  ghost predicate FirstFailure<V, W>(d: seq<(string, V)>, f: (string, V) -> Result<W>, i: int) {
    && 0 <= i < |d|
    && f(d[i].0, d[i].1).Err?
    && forall j :: 0 <= j < i ==> f(d[j].0, d[j].1).Ok?
  }

  /** A dict comprehension `{rename(k): f(k, v) for k, v in d.items()}`
      whose `f` may raise: the first failing entry, in order, decides the
      error. */
  function TryMapEntries<V, W>(d: seq<(string, V)>, rename: string -> string,
                               f: (string, V) -> Result<W>): (r: Result<seq<(string, W)>>)
    ensures r.Ok? <==> forall i :: 0 <= i < |d| ==> f(d[i].0, d[i].1).Ok?
    ensures r.Ok? ==> |r.value| == |d|
    ensures r.Ok? ==> forall i :: 0 <= i < |d| ==>
      r.value[i] == (rename(d[i].0), f(d[i].0, d[i].1).value)
    ensures r.Err? ==> exists i :: FirstFailure(d, f, i) && r.error == f(d[i].0, d[i].1).error
  {
    if d == [] then Ok([])
    else
      match f(d[0].0, d[0].1)
      case Err(e) => Err(e)
      case Ok(w) =>
        match TryMapEntries(d[1..], rename, f)
        case Err(e) =>
          ghost var i :| FirstFailure(d[1..], f, i) && e == f(d[1..][i].0, d[1..][i].1).error;
          assert FirstFailure(d, f, i + 1);
          Err(e)
        case Ok(rest) => Ok([(rename(d[0].0), w)] + rest)
  }
}

=== FILE: json.dfy ===
/** The JSON-like values that flow through the request path: request bodies,
    filter operators, query clauses and pipeline stages. */
module Json {
  import opened Outcomes
  import opened Dicts
  import opened Calendar

  datatype Value =
    | Null                      // None
    | Bool(b: bool)
    | Int(i: int)
    | Str(s: string)
    | DateTime(t: Micros)       // a naive datetime
    | List(items: seq<Value>)
    | Obj(fields: Dict<Value>)  // a dict

  /** Python truthiness: `None`, `False`, `0`, `""` and empty containers are
      false; every other value, every datetime included, is true. */
  predicate Truthy(v: Value) {
    match v
    case Null => false
    case Bool(b) => b
    case Int(i) => i != 0
    case Str(s) => s != []
    case DateTime(_) => true
    case List(items) => items != []
    case Obj(fields) => fields != []
  }

  /** The falsy values are exactly `None`, `False`, `0`, `""`, `[]` and `{}`. */
  lemma FalsyValues(v: Value)
    ensures !Truthy(v) <==> v in {Null, Bool(false), Int(0), Str(""), List([]), Obj([])}
  {
  }

  /** A one-entry dict `{k: v}`. */
  function Single(k: string, v: Value): (r: Value)
    ensures r.Obj? && KeysOf(r.fields) == [k] && Lookup(r.fields, k) == Some(v)
  {
    Obj([(k, v)])
  }
}

=== FILE: operators.dfy ===
/** `MGFuncs.convert_operator_to_mongo_query` and
    `MGFuncs.convert_filter_to_mongo_query`: a request filter maps each field
    to a literal or an operator dict, and each operator dict becomes the
    database's own operator clause. */
module Operators {
  import opened Outcomes
  import opened Dicts
  import opened Calendar
  import opened Json

  /** `dateutil.parser.parse`: the datetime a text denotes, or `None` where
      the parser raises. */
  type DateParser = string -> Option<Micros>

  /** The bounds a range operator may carry. */
  const RangeKeys: seq<string> := ["gte", "lte", "gt", "lt"]

  /** Every key is one of the range bounds (vacuously so for `{}`). */
  predicate IsRangeOperator(f: seq<(string, Value)>) {
    forall i :: 0 <= i < |f| ==> f[i].0 in RangeKeys
  }

  function Dollar(k: string): string {
    "$" + k
  }

  lemma DollarInjective(a: string, b: string)
    ensures Dollar(a) == Dollar(b) ==> a == b
  {
    if Dollar(a) == Dollar(b) {
      assert a == Dollar(a)[1..];
      assert b == Dollar(b)[1..];
    }
  }

  /** The translated names of the four range bounds. */
  lemma DollarRangeKeys()
    ensures Dollar("gte") == "$gte" && Dollar("gt") == "$gt"
    ensures Dollar("lte") == "$lte" && Dollar("lt") == "$lt"
  {
  }

  /** `convert_end_date_filter`: one day later, less one microsecond, or
      `OverflowError` when one day later is past the last datetime. As an
      inclusive upper bound the result admits exactly the instants before
      `t` plus one day. */
  function EndOfDay(t: Micros): (r: Result<Micros>)
    ensures r.Ok? <==> t + DayMicros <= MaxMicros
    ensures r.Err? ==> r.error == DateOverflow
    ensures r.Ok? ==> t <= r.value < t + DayMicros
    ensures r.Ok? ==> forall u: Micros :: BoundAdmits("$lte", DateTime(r.value), u) <==> u < t + DayMicros
  {
    if t + DayMicros <= MaxMicros then Ok(t + DayMicros - 1) else Err(DateOverflow)
  }

  /** From midnight, the end-of-day bound admits, as an inclusive upper
      bound, exactly the instants that fall on that day or earlier. */
  lemma EndOfDayCoversWholeDay(t: Micros, u: Micros)
    requires t % DayMicros == 0 && EndOfDay(t).Ok?
    ensures u <= EndOfDay(t).value <==> DayOf(u) <= DayOf(t)
  {
    var q := t / DayMicros;
    assert t == DayMicros * q;
    assert u == DayMicros * (u / DayMicros) + u % DayMicros;
    if u / DayMicros <= q {
      assert u < DayMicros * q + DayMicros;
    } else {
      assert u >= DayMicros * (q + 1);
    }
  }

  /** One bound of a range operator: a string is parsed as a datetime, and
      for `lte` moved one day on, less one microsecond; any other value is
      kept. An unparsable string and a move past the last datetime fail. */
  function ConvertBound(key: string, v: Value, parse: DateParser): (r: Result<Value>)
    ensures r.Ok? <==> !v.Str? || (parse(v.s).Some? && (key != "lte" || EndOfDay(parse(v.s).value).Ok?))
    ensures r.Err? ==> r.error == if parse(v.s).None? then UnparsableDate(v.s) else DateOverflow
    ensures r.Ok? && !v.Str? ==> r.value == v
    ensures r.Ok? && v.Str? ==> r.value.DateTime? && parse(v.s).value <= r.value.t < parse(v.s).value + DayMicros
  {
    if !v.Str? then Ok(v)
    else
      match parse(v.s)
      case None => Err(UnparsableDate(v.s))
      case Some(t) =>
        if key == "lte" then
          match EndOfDay(t)
          case Ok(e) => Ok(DateTime(e))
          case Err(err) => Err(err)
        else Ok(DateTime(t))
  }

  /** The range branch: `{'$' + key: converted value}` in the same order. */
  function ConvertRange(f: Dict<Value>, parse: DateParser): (r: Result<Dict<Value>>)
    ensures r.Ok? <==> forall i :: 0 <= i < |f| ==> ConvertBound(f[i].0, f[i].1, parse).Ok?
    ensures r.Ok? ==> |r.value| == |f| && forall i :: 0 <= i < |f| ==>
      r.value[i] == (Dollar(f[i].0), ConvertBound(f[i].0, f[i].1, parse).value)
    ensures r.Err? ==> exists i :: (
      && 0 <= i < |f|
      && ConvertBound(f[i].0, f[i].1, parse) == Err(r.error)
      && forall j :: 0 <= j < i ==> ConvertBound(f[j].0, f[j].1, parse).Ok?)
  {
    var bound := (k: string, v: Value) => ConvertBound(k, v, parse);
    match TryMapEntries(f, Dollar, bound)
    case Err(e) =>
      ghost var i :| FirstFailure(f, bound, i) && e == bound(f[i].0, f[i].1).error;
      Err(e)
    case Ok(g) =>
      assert Distinct(KeysOf(g)) by {
        forall i, j | 0 <= i < j < |g| ensures g[i].0 != g[j].0 {
          DollarInjective(f[i].0, f[j].0);
          assert KeysOf(f)[i] != KeysOf(f)[j];
        }
      }
      Ok(g)
  }

  /** `{'$regex': pattern, '$options': 'i'}`: a case-insensitive match. */
  function CaseInsensitive(pattern: Value): (r: Value)
    ensures r.Obj? && KeysOf(r.fields) == ["$regex", "$options"]
    ensures Lookup(r.fields, "$regex") == Some(pattern) && Lookup(r.fields, "$options") == Some(Str("i"))
  {
    Obj([("$regex", pattern), ("$options", Str("i"))])
  }

  /** `convert_operator_to_mongo_query`, tried in the source's order: a
      non-dict passes through; a dict with `ne` becomes `{$ne: v}` whatever
      else it holds; a dict of range bounds only becomes the `$`-prefixed
      bounds; a dict with `regex` becomes a case-insensitive `$regex`; any
      other dict is an invalid operator. */
  function ConvertOperator(op: Value, parse: DateParser): (r: Result<Value>)
    ensures !op.Obj? ==> r == Ok(op)
    ensures op.Obj? && "ne" in KeysOf(op.fields) ==>
      r == Ok(Single("$ne", Lookup(op.fields, "ne").value))
    ensures op.Obj? && "ne" !in KeysOf(op.fields) && IsRangeOperator(op.fields) ==>
      && (r.Ok? <==> forall i :: 0 <= i < |op.fields| ==> ConvertBound(op.fields[i].0, op.fields[i].1, parse).Ok?)
      && (r.Ok? ==> r.value.Obj? && KeysOf(r.value.fields) == seq(|op.fields|, i requires 0 <= i < |op.fields| => Dollar(op.fields[i].0)))
      && (r.Err? ==> r == Err(ConvertRange(op.fields, parse).error))
    ensures op.Obj? && "ne" !in KeysOf(op.fields) && !IsRangeOperator(op.fields) && "regex" in KeysOf(op.fields) ==>
      r == Ok(CaseInsensitive(Lookup(op.fields, "regex").value))
    ensures op.Obj? && "ne" !in KeysOf(op.fields) && !IsRangeOperator(op.fields) && "regex" !in KeysOf(op.fields) ==>
      r == Err(InvalidOperator)
  {
    match op
    case Obj(f) =>
      if "ne" in KeysOf(f) then Ok(Single("$ne", Lookup(f, "ne").value))
      else if IsRangeOperator(f) then
        match ConvertRange(f, parse)
        case Ok(g) =>
          assert KeysOf(g) == seq(|f|, i requires 0 <= i < |f| => Dollar(f[i].0));
          Ok(Obj(g))
        case Err(e) => Err(e)
      else if "regex" in KeysOf(f) then
        Ok(CaseInsensitive(Lookup(f, "regex").value))
      else Err(InvalidOperator)
    case _ => Ok(op)
  }

  /** `convert_filter_to_mongo_query`: every field keeps its place and gets
      its operator translated; the first field whose operator fails, in
      order, makes the whole filter fail with that error. */
  function ConvertFilter(filter: Dict<Value>, parse: DateParser): (r: Result<Dict<Value>>)
    ensures r.Ok? <==> forall i :: 0 <= i < |filter| ==> ConvertOperator(filter[i].1, parse).Ok?
    ensures r.Ok? ==> KeysOf(r.value) == KeysOf(filter)
    ensures r.Ok? ==> forall i :: 0 <= i < |filter| ==>
      r.value[i].1 == ConvertOperator(filter[i].1, parse).value
    ensures r.Err? ==> exists i :: (
      && 0 <= i < |filter|
      && ConvertOperator(filter[i].1, parse) == Err(r.error)
      && forall j :: 0 <= j < i ==> ConvertOperator(filter[j].1, parse).Ok?)
  {
    var each := (k: string, v: Value) => ConvertOperator(v, parse);
    match TryMapEntries(filter, k => k, each)
    case Err(e) =>
      ghost var i :| FirstFailure(filter, each, i) && e == each(filter[i].0, filter[i].1).error;
      Err(e)
    case Ok(g) =>
      assert KeysOf(g) == KeysOf(filter);
      Ok(g)
  }

  /** Each bound of a translated range operator: its key gains a `$`, a
      non-string keeps its value, a string becomes its parsed datetime, and
      for `lte` the parsed datetime plus one day less one microsecond
      (`EndOfDay`). */
  lemma RangeBoundValues(f: Dict<Value>, parse: DateParser, i: int)
    requires IsRangeOperator(f) && 0 <= i < |f|
    requires ConvertOperator(Obj(f), parse).Ok?
    ensures var g := ConvertOperator(Obj(f), parse).value.fields;
      && |g| == |f|
      && g[i].0 == Dollar(f[i].0)
      && (!f[i].1.Str? ==> g[i].1 == f[i].1)
      && (f[i].1.Str? ==> parse(f[i].1.s).Some? && g[i].1.DateTime?)
      && (f[i].1.Str? && f[i].0 != "lte" ==> g[i].1.t == parse(f[i].1.s).value)
      && (f[i].1.Str? && f[i].0 == "lte" ==>
            parse(f[i].1.s).value <= g[i].1.t < parse(f[i].1.s).value + DayMicros)
      && (f[i].1.Str? && f[i].0 == "lte" ==>
            EndOfDay(parse(f[i].1.s).value).Ok? && g[i].1.t == EndOfDay(parse(f[i].1.s).value).value)
  {
    assert "ne" !in KeysOf(f);
    var g := ConvertRange(f, parse).value;
    assert g[i] == (Dollar(f[i].0), ConvertBound(f[i].0, f[i].1, parse).value);
  }

  /** How MongoDB reads one translated bound against a datetime field value:
      a datetime compares only with a datetime. */
  predicate BoundAdmits(op: string, bound: Value, t: Micros) {
    && bound.DateTime?
    && (if op == "$gte" then bound.t <= t
        else if op == "$gt" then bound.t < t
        else if op == "$lte" then t <= bound.t
        else if op == "$lt" then t < bound.t
        else false)
  }

  /** A translated range clause admits `t` when every bound does. */
  predicate ClauseAdmits(clause: seq<(string, Value)>, t: Micros) {
    forall i :: 0 <= i < |clause| ==> BoundAdmits(clause[i].0, clause[i].1, t)
  }

  /** What one request bound on a date field asks for: `gte`, `gt` and `lt`
      compare with the date, and `lte` takes in every instant before the
      date plus one day, the whole of its final day. */
  predicate Intended(key: string, date: Micros, t: Micros) {
    if key == "gte" then date <= t
    else if key == "gt" then date < t
    else if key == "lt" then t < date
    else if key == "lte" then t < date + DayMicros
    else false
  }

  /** A request range operator of date strings asks for `t` when every
      bound's text parses and asks for it. */
  predicate RequestAdmits(f: seq<(string, Value)>, parse: DateParser, t: Micros) {
    forall i :: 0 <= i < |f| ==>
      f[i].1.Str? && parse(f[i].1.s).Some? && Intended(f[i].0, parse(f[i].1.s).value, t)
  }

  /** For a range operator of date strings, the translated clause admits
      exactly the instants the request asks for. */
  lemma RangeTranslationMeaning(f: Dict<Value>, parse: DateParser, t: Micros)
    requires IsRangeOperator(f)
    requires forall i :: 0 <= i < |f| ==> f[i].1.Str?
    requires ConvertOperator(Obj(f), parse).Ok?
    ensures ClauseAdmits(ConvertOperator(Obj(f), parse).value.fields, t) <==> RequestAdmits(f, parse, t)
  {
    var g := ConvertOperator(Obj(f), parse).value.fields;
    DollarRangeKeys();
    assert |g| == |f| by { assert |KeysOf(g)| == |f|; }
    forall i | 0 <= i < |f|
      ensures parse(f[i].1.s).Some?
      ensures BoundAdmits(g[i].0, g[i].1, t) <==> Intended(f[i].0, parse(f[i].1.s).value, t)
    {
      RangeBoundValues(f, parse, i);
    }
  }

  /** `InvalidOperator` is raised exactly for a dict with neither `ne` nor
      `regex` that holds some key other than the four range bounds; parse
      and overflow failures are the only other errors. */
  lemma InvalidOperatorExactly(op: Value, parse: DateParser)
    ensures ConvertOperator(op, parse) == Err(InvalidOperator) <==>
      op.Obj? && "ne" !in KeysOf(op.fields) && "regex" !in KeysOf(op.fields) && !IsRangeOperator(op.fields)
    ensures ConvertOperator(op, parse).Err? && ConvertOperator(op, parse).error != InvalidOperator ==>
      ConvertOperator(op, parse).error.UnparsableDate? || ConvertOperator(op, parse).error == DateOverflow
  {
    if op.Obj? && "ne" !in KeysOf(op.fields) && IsRangeOperator(op.fields) {
      var r := ConvertRange(op.fields, parse);
      if r.Err? {
        var i :| 0 <= i < |op.fields| && ConvertBound(op.fields[i].0, op.fields[i].1, parse) == Err(r.error);
        assert r.error != InvalidOperator;
      }
    }
  }

  /** Whenever a translation yields a `$regex`, it is case-insensitive. */
  lemma RegexAlwaysCaseInsensitive(op: Value, parse: DateParser)
    requires ConvertOperator(op, parse).Ok?
    requires ConvertOperator(op, parse).value.Obj?
    requires "$regex" in KeysOf(ConvertOperator(op, parse).value.fields)
    ensures Lookup(ConvertOperator(op, parse).value.fields, "$options") == Some(Str("i"))
  {
    var f := op.fields;
    if "ne" !in KeysOf(f) && IsRangeOperator(f) {
      assert false;
    }
  }

  /** After a successful filter translation, every field holds the
      translation of what it held, and no field is added. */
  lemma FilterLookup(filter: Dict<Value>, parse: DateParser, k: string)
    requires ConvertFilter(filter, parse).Ok?
    ensures var g := ConvertFilter(filter, parse).value;
      && (Lookup(filter, k).None? ==> Lookup(g, k).None?)
      && (Lookup(filter, k).Some? ==>
            && ConvertOperator(Lookup(filter, k).value, parse).Ok?
            && Lookup(g, k) == Some(ConvertOperator(Lookup(filter, k).value, parse).value))
  {
    var g := ConvertFilter(filter, parse).value;
    if Lookup(filter, k).Some? {
      var i :| 0 <= i < |filter| && filter[i].0 == k;
      LookupEntry(filter, i);
      assert KeysOf(g)[i] == k;
      LookupEntry(g, i);
    }
  }
}

=== FILE: outcomes.dfy ===
/** Optional values, the errors the request path can raise, and a result type
    that carries either a value or one of those errors. */
module Outcomes {

  datatype Option<+T> = None | Some(value: T) {

    /** The wrapped value, or `default` when there is none. */
    function GetOr(default: T): T {
      match this
      case Some(v) => v
      case None => default
    }
  }

  /** Every exception the modelled code raises, one constructor per cause. */
  datatype Error =
    | InvalidOperator                     // ValueError('Invalid filter operator')
    | InvalidValueType                    // ValueError('Invalid value type')
    | UnparsableDate(text: string)        // the date parser rejected the text
    | DateOverflow                        // OverflowError from date arithmetic
    | InvalidFields(fields: seq<string>)  // request fields that break their bound
    | ConflictingProjection               // include and exclude given together

  datatype Result<+T> = Ok(value: T) | Err(error: Error)
}

=== FILE: pagination.dfy ===
/** `MGFuncs.compute_pagination`: the number of documents to skip and the
    pagination metadata returned to the client. */
module Pagination {
  import opened Outcomes

  /** The `{currentPage, pageSize, totalPages, totalItems}` metadata. */
  datatype PageMeta = PageMeta(currentPage: int, pageSize: int, totalPages: int, totalItems: int)

  /** The `(skip_count, pagination)` pair; no metadata means no pagination. */
  datatype Paging = Paging(skip: int, meta: Option<PageMeta>)

  /** Python's `a // b`: the quotient rounded toward negative infinity. */
  function FloorDiv(a: int, b: int): (q: int)
    requires b != 0
    ensures b > 0 ==> b * q <= a < b * q + b
    ensures b < 0 ==> b * q + b < a <= b * q
  {
    var e := a / b;
    assert a == b * e + a % b;
    if b > 0 || a % b == 0 then e
    else
      assert b * (e - 1) == b * e - b;
      e - 1
  }

  /** Skip and metadata for `page` of `pageSize` items out of `totalHits`.
      Python would raise ZeroDivisionError for a page size of zero. */
  function ComputePagination(totalHits: int, page: Option<int>, pageSize: Option<int>): (r: Paging)
    requires page.Some? && pageSize.Some? ==> pageSize.value != 0
    ensures page.None? || pageSize.None? ==> r == Paging(0, None)
    ensures page.Some? && pageSize.Some? ==>
      && r.meta.Some?
      && r.skip == (page.value - 1) * pageSize.value
      && r.meta.value.currentPage == page.value
      && r.meta.value.pageSize == pageSize.value
      && r.meta.value.totalItems == totalHits
      && r.meta.value.totalPages >= 1
    ensures page.Some? && pageSize.Some? && pageSize.value >= 1 && totalHits > 0 ==>
      var n, s := r.meta.value.totalPages, pageSize.value;
      (n - 1) * s < totalHits <= n * s
    ensures page.Some? && pageSize.Some? && pageSize.value >= 1 && totalHits <= 0 ==>
      r.meta.value.totalPages == 1
  {
    if page.None? || pageSize.None? then Paging(0, None)
    else
      var p, s := page.value, pageSize.value;
      var q := FloorDiv(totalHits + s - 1, s);
      var pageCount := if q > 1 then q else 1;
      assert s >= 1 && totalHits > 0 ==> (pageCount - 1) * s < totalHits by {
        if s >= 1 && totalHits > 0 {
          assert q >= 1;
          assert (q - 1) * s == s * q - s;
        }
      }
      Paging((p - 1) * s, Some(PageMeta(p, s, pageCount, totalHits)))
  }

  /** Multiplying by a positive page size keeps order. */
  lemma MulMonotone(a: int, b: int, s: int)
    requires a <= b && s >= 1
    ensures a * s <= b * s
  {
    assert b * s - a * s == (b - a) * s;
  }

  /** The page, counting from 1, that shows item `i` (counting from 0). */
  function PageOf(i: int, pageSize: int): (p: int)
    requires i >= 0 && pageSize >= 1
    ensures p >= 1 && (p - 1) * pageSize <= i < p * pageSize
  {
    var p := i / pageSize + 1;
    assert i == pageSize * (i / pageSize) + i % pageSize;
    assert (p - 1) * pageSize == pageSize * (i / pageSize);
    p
  }

  /** Item `i` of a result set is shown on page `q` exactly when `q` is the
      page `PageOf(i)`, and that page is within `totalPages`. */
  lemma ItemOnExactlyOnePage(totalHits: int, pageSize: int, i: int, q: int)
    requires pageSize >= 1 && 0 <= i < totalHits && q >= 1
    ensures var r := ComputePagination(totalHits, Some(q), Some(pageSize));
      && (r.skip <= i < r.skip + pageSize <==> q == PageOf(i, pageSize))
      && PageOf(i, pageSize) <= r.meta.value.totalPages
  {
    var r := ComputePagination(totalHits, Some(q), Some(pageSize));
    var s, p, n := pageSize, PageOf(i, pageSize), r.meta.value.totalPages;
    assert r.skip + s == q * s;
    if q < p {
      MulMonotone(q, p - 1, s);
    } else if q > p {
      MulMonotone(p, q - 1, s);
    }
    if n < p {
      MulMonotone(n, p - 1, s);
    }
  }

  /** `totalPages` counts exactly the pages that show something: each page
      up to it starts inside the result set, each page past it starts beyond
      the end. With no hits there is still one (empty) page. */
  lemma TotalPagesCountsNonEmptyPages(totalHits: int, pageSize: int, q: int)
    requires pageSize >= 1 && totalHits >= 0 && q >= 1
    ensures var r := ComputePagination(totalHits, Some(q), Some(pageSize));
      && (totalHits > 0 ==> (q <= r.meta.value.totalPages <==> r.skip < totalHits))
      && (totalHits == 0 ==> r.meta.value.totalPages == 1)
  {
    var r := ComputePagination(totalHits, Some(q), Some(pageSize));
    var s, n := pageSize, r.meta.value.totalPages;
    if totalHits > 0 {
      if q <= n {
        MulMonotone(q - 1, n - 1, s);
      } else {
        MulMonotone(n, q - 1, s);
      }
    }
  }
}

=== FILE: pipeline.dfy ===
/** `MGFuncs.aggregate_action` and `MGFuncs.aggregate_collection` up to the
    database calls: the stages appended after a caller's aggregation
    pipeline, the pipeline that counts its matches, and the pagination
    worked out from that count. */
module Pipeline {
  import opened Outcomes
  import opened Dicts
  import opened Json
  import opened Pagination
  import opened Operators
  import opened Projection

  /** A pipeline stage `{name: argument}`. */
  function Stage(name: string, arg: Value): (s: Value)
    ensures StageName(s) == name
  {
    Obj([(name, arg)])
  }

  /** The tail stages, in the order they are appended. */
  const TailOrder: seq<string> := ["$sort", "$skip", "$limit", "$project"]

  /** The operator of a one-entry stage. */
  function StageName(stage: Value): string {
    if stage.Obj? && |stage.fields| == 1 then stage.fields[0].0 else ""
  }

  /** Where a stage's operator sits in `TailOrder`; 4 when it is not there. */
  function TailRank(stage: Value): (n: nat)
    ensures n <= 4
    ensures n < 4 ==> TailOrder[n] == StageName(stage)
  {
    var name := StageName(stage);
    if name == "$sort" then 0 else if name == "$skip" then 1
    else if name == "$limit" then 2 else if name == "$project" then 3 else 4
  }

  /** The number of truthy tail arguments. */
  function CountTruthy(sort: Dict<Value>, skip: int, limit: int, projection: Dict<Value>): nat {
    (if sort != [] then 1 else 0) + (if skip != 0 then 1 else 0)
    + (if limit != 0 then 1 else 0) + (if projection != [] then 1 else 0)
  }

  /** Appends `$sort`, `$skip`, `$limit` and `$project`, in that order, each
      only when its argument is truthy. */
  function AppendTail(pipeline: seq<Value>, projection: Dict<Value>, sort: Dict<Value>,
                      skip: int, limit: int): (r: seq<Value>)
    ensures |r| == |pipeline| + CountTruthy(sort, skip, limit, projection)
    ensures r[..|pipeline|] == pipeline
    ensures Stage("$sort", Obj(sort)) in r[|pipeline|..] <==> sort != []
    ensures Stage("$skip", Int(skip)) in r[|pipeline|..] <==> skip != 0
    ensures Stage("$limit", Int(limit)) in r[|pipeline|..] <==> limit != 0
    ensures Stage("$project", Obj(projection)) in r[|pipeline|..] <==> projection != []
    ensures forall i :: |pipeline| <= i < |r| ==> TailRank(r[i]) < 4
    ensures forall i, j :: |pipeline| <= i < j < |r| ==> TailRank(r[i]) < TailRank(r[j])
  {
    var tail := TailStages(projection, sort, skip, limit);
    TailMembers(projection, sort, skip, limit);
    assert (pipeline + tail)[|pipeline|..] == tail;
    pipeline + tail
  }

  /** Each tail stage is present exactly when its argument is truthy. */
  lemma TailMembers(projection: Dict<Value>, sort: Dict<Value>, skip: int, limit: int)
    ensures var tail := TailStages(projection, sort, skip, limit);
      && (Stage("$sort", Obj(sort)) in tail <==> sort != [])
      && (Stage("$skip", Int(skip)) in tail <==> skip != 0)
      && (Stage("$limit", Int(limit)) in tail <==> limit != 0)
      && (Stage("$project", Obj(projection)) in tail <==> projection != [])
  {
    var s := OptionalStage(sort != [], "$sort", Obj(sort));
    var k := OptionalStage(skip != 0, "$skip", Int(skip));
    var l := OptionalStage(limit != 0, "$limit", Int(limit));
    var p := OptionalStage(projection != [], "$project", Obj(projection));
    assert TailStages(projection, sort, skip, limit) == s + k + l + p;
  }

  /** `[{name: arg}]` when `present`, and nothing otherwise. */
  function OptionalStage(present: bool, name: string, arg: Value): (r: seq<Value>)
    ensures |r| == if present then 1 else 0
    ensures forall x :: x in r ==> StageName(x) == name
    ensures present ==> Stage(name, arg) in r
  {
    if present then [Stage(name, arg)] else []
  }

  /** The appended stages on their own. */
  function TailStages(projection: Dict<Value>, sort: Dict<Value>, skip: int, limit: int): (tail: seq<Value>)
    ensures |tail| == CountTruthy(sort, skip, limit, projection)
    ensures forall i :: 0 <= i < |tail| ==> TailRank(tail[i]) < 4
    ensures forall i, j :: 0 <= i < j < |tail| ==> TailRank(tail[i]) < TailRank(tail[j])
  {
    var s := OptionalStage(sort != [], "$sort", Obj(sort));
    var k := OptionalStage(skip != 0, "$skip", Int(skip));
    var l := OptionalStage(limit != 0, "$limit", Int(limit));
    var p := OptionalStage(projection != [], "$project", Obj(projection));
    TailRanks(s, k, l, p);
    s + k + l + p
  }

  /** In the concatenation of the four optional stages, each stage's rank
      is the position of its group. */
  lemma TailRanks(s: seq<Value>, k: seq<Value>, l: seq<Value>, p: seq<Value>)
    requires forall x :: x in s ==> StageName(x) == "$sort"
    requires forall x :: x in k ==> StageName(x) == "$skip"
    requires forall x :: x in l ==> StageName(x) == "$limit"
    requires forall x :: x in p ==> StageName(x) == "$project"
    requires |s| <= 1 && |k| <= 1 && |l| <= 1 && |p| <= 1
    ensures forall i :: 0 <= i < |s + k + l + p| ==> TailRank((s + k + l + p)[i]) < 4
    ensures forall i, j :: 0 <= i < j < |s + k + l + p| ==>
      TailRank((s + k + l + p)[i]) < TailRank((s + k + l + p)[j])
  {
    var tail := s + k + l + p;
    var a, b, c := |s|, |s| + |k|, |s| + |k| + |l|;
    forall i | 0 <= i < |tail|
      ensures TailRank(tail[i]) == if i < a then 0 else if i < b then 1 else if i < c then 2 else 3
    {
      if i < a { assert tail[i] == s[i]; assert tail[i] in s; }
      else if i < b { assert tail[i] == k[i - a]; assert tail[i] in k; }
      else if i < c { assert tail[i] == l[i - b]; assert tail[i] in l; }
      else { assert tail[i] == p[i - c]; assert tail[i] in p; }
    }
  }

  lemma ProductZero(a: int, b: int)
    requires b != 0
    ensures a * b == 0 <==> a == 0
  {
    if a > 0 && b > 0 { assert a * b >= b; }
    else if a > 0 { assert a * b <= b; }
    else if a < 0 && b > 0 { assert a * b <= -b; }
    else if a < 0 { assert a * b >= -b; }
  }

  /** `body.model_dump()` of a list request: the fields the aggregation reads. */
  datatype QueryBody = QueryBody(
    includeFields: seq<string>,
    excludeFields: seq<string>,
    page: int,
    pageSize: int,
    sort: Dict<Value>,
    filter: Dict<Value>)

  /** What `aggregate_collection` sends to the database and returns: the
      counting pipeline, the items pipeline and the pagination. */
  datatype Plan = Plan(countPipeline: seq<Value>, itemsPipeline: seq<Value>, paging: Paging)

  const CountStage: Value := Single("$count", Str("total_count"))

  /** `aggregate_collection` with the database's count as the input
      `counted` (`None` when the counting pipeline returns no document).
      `build` is the caller's pipeline for a translated match clause. */
  function AggregateCollection(body: QueryBody, build: Value -> seq<Value>,
                               counted: Option<int>, parse: DateParser): (r: Result<Plan>)
    requires body.pageSize != 0
    ensures r.Err? <==> ConvertFilter(body.filter, parse).Err?
    ensures r.Err? ==> r.error == ConvertFilter(body.filter, parse).error
    ensures r.Ok? ==> PagedPlan(r.value, build(Obj(ConvertFilter(body.filter, parse).value)), body, counted.GetOr(0))
  {
    match ConvertFilter(body.filter, parse)
    case Err(e) => Err(e)
    case Ok(matchClause) =>
      var projection := BuildProjection(body.includeFields, body.excludeFields);
      var base := build(Obj(matchClause));
      var paging := ComputePagination(counted.GetOr(0), Some(body.page), Some(body.pageSize));
      var items := AppendTail(base, projection, body.sort, paging.skip, body.pageSize);
      PagedTail(base, body, counted.GetOr(0));
      Ok(Plan(base + [CountStage], items, paging))
  }

  /** The plan's pagination is `compute_pagination` of the count and the
      requested page, and its items pipeline is the caller's pipeline with
      exactly the tail `aggregate_action` appends for the body's sort, the
      projection of its field lists, that skip and the page size. */
  lemma AggregatePlan(body: QueryBody, build: Value -> seq<Value>, counted: Option<int>, parse: DateParser)
    requires body.pageSize != 0
    requires ConvertFilter(body.filter, parse).Ok?
    ensures var r := AggregateCollection(body, build, counted, parse);
      && r.Ok?
      && r.value.paging == ComputePagination(counted.GetOr(0), Some(body.page), Some(body.pageSize))
      && r.value.itemsPipeline == AppendTail(build(Obj(ConvertFilter(body.filter, parse).value)),
           BuildProjection(body.includeFields, body.excludeFields), body.sort, r.value.paging.skip, body.pageSize)
  {
  }

  /** What the database is asked for one page of `body`, after the caller's
      pipeline `base`: the count runs `base` plus `$count`; the items
      pipeline keeps `base` as its prefix and appends `$limit` of the page
      size always, `$skip` exactly when the page is not the first, `$sort`
      exactly when a sort is given and `$project` exactly when an include or
      exclude list is; the metadata reports the page, its size and `total`. */
  predicate PagedPlan(plan: Plan, base: seq<Value>, body: QueryBody, total: int) {
    && plan.countPipeline == base + [CountStage]
    && |plan.itemsPipeline| >= |base|
    && plan.itemsPipeline[..|base|] == base
    && plan.paging.skip == (body.page - 1) * body.pageSize
    && plan.paging.meta.Some?
    && plan.paging.meta.value.totalItems == total
    && plan.paging.meta.value.currentPage == body.page
    && plan.paging.meta.value.pageSize == body.pageSize
    && var tail := plan.itemsPipeline[|base|..];
    && Stage("$limit", Int(body.pageSize)) in tail
    && (body.page != 1 <==> Stage("$skip", Int(plan.paging.skip)) in tail)
    && (Stage("$sort", Obj(body.sort)) in tail <==> body.sort != [])
    && (Stage("$project", Obj(BuildProjection(body.includeFields, body.excludeFields))) in tail <==>
          body.includeFields != [] || body.excludeFields != [])
  }

  /** The pagination and tail `aggregate_collection` computes for `body`
      after `base` form a `PagedPlan`. */
  lemma PagedTail(base: seq<Value>, body: QueryBody, total: int)
    requires body.pageSize != 0
    ensures var paging := ComputePagination(total, Some(body.page), Some(body.pageSize));
      var projection := BuildProjection(body.includeFields, body.excludeFields);
      PagedPlan(Plan(base + [CountStage], AppendTail(base, projection, body.sort, paging.skip, body.pageSize), paging),
                base, body, total)
  {
    var paging := ComputePagination(total, Some(body.page), Some(body.pageSize));
    assert paging.skip == 0 <==> body.page == 1 by {
      ProductZero(body.page - 1, body.pageSize);
    }
    ProjectionEmpty(body.includeFields, body.excludeFields);
  }
}

=== FILE: products.dfy ===
/** The `POST /products` handler of `main.py` around the database: the
    `selected` flag becomes a match on the grouped documents, a
    `product_name` filter becomes a regular expression, the product
    pipeline is built, and each returned document's `_id` becomes a string
    `id`. */
module Products {
  import opened Outcomes
  import opened Dicts
  import opened Json
  import opened Pagination
  import opened Operators
  import opened Pipeline
  import opened Request
  import opened Projection

  /** The fields each grouped product is reshaped to, in order. */
  const ProductFields: seq<string> := ["product_id", "product_name", "active", "url",
    "url_preview_image", "brand_name", "category_name", "subcategory_name"]

  /** The post-group match clause for a popped `selected` value: nothing
      for `None`, "some document of the product is selected" for a truthy
      value, and "no document of the product is selected" otherwise. */
  function SelectedClause(selected: Value): (r: Dict<Value>)
    ensures selected == Null ==> r == []
    ensures selected != Null ==> KeysOf(r) == ["selected_values"]
    ensures Truthy(selected) ==> Lookup(r, "selected_values") == Some(Bool(true))
    ensures selected != Null && !Truthy(selected) ==>
      Lookup(r, "selected_values") == Some(Single("$ne", Bool(true)))
  {
    if selected == Null then []
    else if Truthy(selected) then [("selected_values", Bool(true))]
    else [("selected_values", Single("$ne", Bool(true)))]
  }

  /** Query equality as the database applies it: the field holds `v`, or
      holds an array one of whose elements is `v`. */
  predicate EqualsOrContains(field: Option<Value>, v: Value) {
    field == Some(v) || (field.Some? && field.value.List? && v in field.value.items)
  }

  /** A one-field condition: `{$ne: v}` holds exactly when equality with
      `v` does not; any other condition is an equality. */
  predicate FieldMatches(field: Option<Value>, cond: Value) {
    if cond.Obj? && KeysOf(cond.fields) == ["$ne"] then !EqualsOrContains(field, cond.fields[0].1)
    else EqualsOrContains(field, cond)
  }

  /** A document satisfies a match clause when it satisfies every field's condition. */
  predicate Matches(doc: Dict<Value>, query: Dict<Value>) {
    forall i :: 0 <= i < |query| ==> FieldMatches(Lookup(doc, query[i].0), query[i].1)
  }

  /** On a grouped product whose `selected_values` is the set of its
      documents' `selected` flags, the clause keeps every product when no
      flag was asked for, the products with a selected document for a
      truthy flag, and the products without one for a falsy flag. */
  lemma SelectedFilterMeaning(selected: Value, group: Dict<Value>, flags: seq<Value>)
    requires Lookup(group, "selected_values") == Some(List(flags))
    ensures selected == Null ==> Matches(group, SelectedClause(selected))
    ensures Truthy(selected) ==> (Matches(group, SelectedClause(selected)) <==> Bool(true) in flags)
    ensures selected != Null && !Truthy(selected) ==>
      (Matches(group, SelectedClause(selected)) <==> Bool(true) !in flags)
  {
    var clause := SelectedClause(selected);
    if selected != Null {
      assert clause[0].0 == "selected_values";
      assert Matches(group, clause) <==> FieldMatches(Some(List(flags)), clause[0].1);
    }
  }

  /** `{"regex": v}` for every `product_name` filter; every other field
      keeps its place and its value. */
  function WrapProductName(filter: Dict<Value>): (r: Dict<Value>)
    ensures KeysOf(r) == KeysOf(filter)
    ensures forall k :: k != "product_name" ==> Lookup(r, k) == Lookup(filter, k)
    ensures Lookup(filter, "product_name").None? ==> r == filter
    ensures Lookup(filter, "product_name").Some? ==>
      Lookup(r, "product_name") == Some(Single("regex", Lookup(filter, "product_name").value))
  {
    var r := seq(|filter|, i requires 0 <= i < |filter| =>
      if filter[i].0 == "product_name" then (filter[i].0, Single("regex", filter[i].1)) else filter[i]);
    assert KeysOf(r) == KeysOf(filter);
    WrapLookups(filter, r);
    r
  }

  /** The lookup laws of a dict whose entries are those of `filter` with
      the `product_name` value wrapped. */
  lemma WrapLookups(filter: Dict<Value>, r: Dict<Value>)
    requires |r| == |filter|
    requires forall i :: 0 <= i < |filter| ==>
      r[i] == if filter[i].0 == "product_name" then (filter[i].0, Single("regex", filter[i].1)) else filter[i]
    ensures forall k :: k != "product_name" ==> Lookup(r, k) == Lookup(filter, k)
    ensures Lookup(filter, "product_name").None? ==> r == filter
    ensures Lookup(filter, "product_name").Some? ==>
      Lookup(r, "product_name") == Some(Single("regex", Lookup(filter, "product_name").value))
  {
    assert KeysOf(r) == KeysOf(filter);
    forall k | k != "product_name" ensures Lookup(r, k) == Lookup(filter, k) {
      if i :| 0 <= i < |filter| && filter[i].0 == k {
        LookupEntry(filter, i);
        LookupEntry(r, i);
      }
    }
    if i :| 0 <= i < |filter| && filter[i].0 == "product_name" {
      LookupEntry(filter, i);
      LookupEntry(r, i);
    } else {
      assert r == filter;
    }
  }

  /** The wrapped name filter always translates: it can never be what
      makes a filter fail. */
  lemma WrappedNameTranslation(filter: Dict<Value>, parse: DateParser)
    ensures ConvertFilter(WrapProductName(filter), parse).Ok? <==>
      forall i :: 0 <= i < |filter| && filter[i].0 != "product_name" ==>
        ConvertOperator(filter[i].1, parse).Ok?
  {
    var w := WrapProductName(filter);
    forall i | 0 <= i < |filter|
      ensures ConvertOperator(w[i].1, parse).Ok? <==>
        filter[i].0 == "product_name" || ConvertOperator(filter[i].1, parse).Ok?
    {
      WrapEntry(filter, i);
      if filter[i].0 == "product_name" {
        RegexWrapTranslates(filter[i].1, parse);
      }
    }
  }

  /** A name field holding `{"regex": v}`, as the wrap leaves it, reaches
      the database as a case-insensitive `$regex` on `v`. */
  lemma WrappedNameRegex(w: Dict<Value>, v: Value, parse: DateParser)
    requires Lookup(w, "product_name") == Some(Single("regex", v))
    requires ConvertFilter(w, parse).Ok?
    ensures Lookup(ConvertFilter(w, parse).value, "product_name") == Some(CaseInsensitive(v))
  {
    RegexWrapTranslates(v, parse);
    FilterLookup(w, parse, "product_name");
  }

  lemma WrapEntry(filter: Dict<Value>, i: int)
    requires 0 <= i < |filter|
    ensures WrapProductName(filter)[i].1 == if filter[i].0 == "product_name" then Single("regex", filter[i].1) else filter[i].1
  {
  }

  /** `{"regex": v}` translates to a case-insensitive `$regex` on `v`. */
  lemma RegexWrapTranslates(v: Value, parse: DateParser)
    ensures ConvertOperator(Single("regex", v), parse) == Ok(CaseInsensitive(v))
  {
    assert !IsRangeOperator(Single("regex", v).fields);
  }

  /** No product field is named twice: no two names agree in both first
      letter and length. */
  lemma ProductFieldsDistinct()
    ensures Distinct(ProductFields)
  {
    var tags := seq(|ProductFields|, i requires 0 <= i < |ProductFields| => (ProductFields[i][0], |ProductFields[i]|));
    assert tags == [('p', 10), ('p', 12), ('a', 6), ('u', 3), ('u', 17), ('b', 10), ('c', 13), ('s', 16)];
    forall i, j | 0 <= i < j < |ProductFields| ensures ProductFields[i] != ProductFields[j] {
      assert tags[i] != tags[j];
    }
  }

  /** The `$replaceRoot` document: each product field taken from the
      group's first document. */
  function NewRoot(): (r: Value)
    ensures r.Obj? && KeysOf(r.fields) == ProductFields
    ensures forall i :: 0 <= i < |ProductFields| ==>
      Lookup(r.fields, ProductFields[i]) == Some(Str("$document." + ProductFields[i]))
  {
    var f := seq(|ProductFields|, i requires 0 <= i < |ProductFields| =>
      (ProductFields[i], Str("$document." + ProductFields[i])));
    assert KeysOf(f) == ProductFields;
    ProductFieldsDistinct();
    forall i | 0 <= i < |ProductFields|
      ensures Lookup(f, ProductFields[i]) == Some(Str("$document." + ProductFields[i]))
    {
      LookupEntry(f, i);
    }
    Obj(f)
  }

  /** The `$group` argument: one group per `product_id`, keeping the first
      document and the set of `selected` values. */
  const GroupSpec: Value := Obj([
    ("_id", Str("$product_id")),
    ("document", Single("$first", Str("$$ROOT"))),
    ("selected_values", Single("$addToSet", Str("$selected")))])

  /** The products pipeline for a translated match clause: match, group by
      product, match on the `selected` clause, reshape. */
  function ProductPipeline(matchClause: Value, selectedClause: Dict<Value>): (r: seq<Value>)
    ensures |r| == 4
    ensures StageName(r[0]) == "$match" && StageName(r[1]) == "$group"
    ensures StageName(r[2]) == "$match" && StageName(r[3]) == "$replaceRoot"
    ensures r[0].fields[0].1 == matchClause && r[2].fields[0].1 == Obj(selectedClause)
    ensures r[1].fields[0].1 == GroupSpec && r[3].fields[0].1 == Single("newRoot", NewRoot())
  {
    [Stage("$match", matchClause), Stage("$group", GroupSpec),
     Stage("$match", Obj(selectedClause)), Stage("$replaceRoot", Single("newRoot", NewRoot()))]
  }

  /** `item['id'] = str(item.pop('_id'))` when `_id` is present, with
      `show` standing for `str` of the identifier. */
  function RenameId(item: Dict<Value>, show: Value -> string): (r: Dict<Value>)
    ensures Lookup(item, "_id").None? ==> r == item
    ensures Lookup(item, "_id").Some? ==>
      Lookup(r, "_id").None? && Lookup(r, "id") == Some(Str(show(Lookup(item, "_id").value)))
    ensures forall k :: k != "id" && k != "_id" ==> Lookup(r, k) == Lookup(item, k)
  {
    match Lookup(item, "_id")
    case None => item
    case Some(v) =>
      var popped := Pop(item, "_id");
      forall k ensures Lookup(Put(popped, "id", Str(show(v))), k)
                       == if k == "id" then Some(Str(show(v))) else if k == "_id" then None else Lookup(item, k)
      {
        LookupPop(item, "_id", k);
        LookupPut(popped, "id", Str(show(v)), k);
      }
      Put(popped, "id", Str(show(v)))
  }

  /** The response envelope. */
  datatype Response = Response(data: seq<Dict<Value>>, meta: Option<PageMeta>, status: bool, detail: string)

  const FetchedDetail: string := "Products fetched successfully"

  /** The filter handed to the translation: `selected` popped and the
      product name wrapped. */
  function PreparedFilter(filter: Dict<Value>): (r: Dict<Value>)
    ensures Lookup(r, "selected").None?
    ensures forall k :: k != "selected" && k != "product_name" ==> Lookup(r, k) == Lookup(filter, k)
    ensures Lookup(filter, "product_name").Some? ==>
      Lookup(r, "product_name") == Some(Single("regex", Lookup(filter, "product_name").value))
    ensures Lookup(filter, "product_name").None? ==> Lookup(r, "product_name").None?
    ensures KeysOf(r) == KeysOf(Pop(filter, "selected"))
  {
    var popped := Pop(filter, "selected");
    forall k { LookupPop(filter, "selected", k); }
    WrapProductName(popped)
  }

  /** The database work of `get_products` for a validated body, with the
      database's count as the input `counted`: the pipelines it runs and
      the pagination it reports. */
  function PlanProducts(body: QueryBody, counted: Option<int>, parse: DateParser): (r: Result<Plan>)
    requires ValidBody(body)
    ensures r.Err? <==> ConvertFilter(PreparedFilter(body.filter), parse).Err?
    ensures r.Err? ==> r.error == ConvertFilter(PreparedFilter(body.filter), parse).error
    ensures r.Ok? ==>
      PagedPlan(r.value, ProductPipeline(Obj(ConvertFilter(PreparedFilter(body.filter), parse).value),
                                         SelectedClause(Lookup(body.filter, "selected").GetOr(Null))),
                body, counted.GetOr(0))
  {
    var clause := SelectedClause(Lookup(body.filter, "selected").GetOr(Null));
    var prepared := body.(filter := PreparedFilter(body.filter));
    AggregateCollection(prepared, m => ProductPipeline(m, clause), counted, parse)
  }

  /** A successful product plan reports `compute_pagination` of the count
      and the requested page, and pages the product pipeline with exactly
      the tail `aggregate_action` appends for the body's sort and field
      lists. */
  lemma PlanProductsExact(body: QueryBody, counted: Option<int>, parse: DateParser)
    requires ValidBody(body)
    requires PlanProducts(body, counted, parse).Ok?
    ensures var plan := PlanProducts(body, counted, parse).value;
      var base := ProductPipeline(Obj(ConvertFilter(PreparedFilter(body.filter), parse).value),
                                  SelectedClause(Lookup(body.filter, "selected").GetOr(Null)));
      && plan.paging == ComputePagination(counted.GetOr(0), Some(body.page), Some(body.pageSize))
      && plan.itemsPipeline == AppendTail(base, BuildProjection(body.includeFields, body.excludeFields),
                                          body.sort, plan.paging.skip, body.pageSize)
  {
    var clause := SelectedClause(Lookup(body.filter, "selected").GetOr(Null));
    var prepared := body.(filter := PreparedFilter(body.filter));
    AggregatePlan(prepared, m => ProductPipeline(m, clause), counted, parse);
  }

  /** The documents of the response: none carries `_id`; each one that had
      it carries its string form under `id`; every other field is kept. */
  function RenameAll(items: seq<Dict<Value>>, show: Value -> string): (r: seq<Dict<Value>>)
    ensures |r| == |items|
    ensures forall i :: 0 <= i < |r| ==> Lookup(r[i], "_id").None?
    ensures forall i :: 0 <= i < |r| && Lookup(items[i], "_id").Some? ==>
      Lookup(r[i], "id") == Some(Str(show(Lookup(items[i], "_id").value)))
    ensures forall i :: 0 <= i < |r| && Lookup(items[i], "_id").None? ==> r[i] == items[i]
    ensures forall i, k :: 0 <= i < |r| && k != "id" && k != "_id" ==> Lookup(r[i], k) == Lookup(items[i], k)
  {
    seq(|items|, i requires 0 <= i < |items| => RenameId(items[i], show))
  }

  /** `get_products`: the plan, and the envelope around the renamed
      documents the database returned (`items`). */
  function GetProducts(body: QueryBody, counted: Option<int>, items: seq<Dict<Value>>,
                       parse: DateParser, show: Value -> string): (r: Result<(Plan, Response)>)
    requires ValidBody(body)
    ensures r.Err? <==> PlanProducts(body, counted, parse).Err?
    ensures r.Err? ==> r.error == PlanProducts(body, counted, parse).error
    ensures r.Ok? ==>
      && r.value.0 == PlanProducts(body, counted, parse).value
      && r.value.1.meta == r.value.0.paging.meta
      && r.value.1.data == RenameAll(items, show)
      && r.value.1.status && r.value.1.detail == FetchedDetail
  {
    match PlanProducts(body, counted, parse)
    case Err(e) => Err(e)
    case Ok(plan) => Ok((plan, Response(RenameAll(items, show), plan.paging.meta, true, FetchedDetail)))
  }
}

=== FILE: projection.dfy ===
/** `MGFuncs.convert_projection_to_mongo_query`: include and exclude lists
    become a field-selection clause. */
module Projection {
  import opened Outcomes
  import opened Dicts
  import opened Json

  /** `dict(map(lambda x: (x, v), keys))`: every key maps to `v`; a key
      listed twice is stored once. */
  function FromKeys(keys: seq<string>, v: Value): (r: Dict<Value>)
    ensures forall k :: Lookup(r, k) == if k in keys then Some(v) else None
  {
    if keys == [] then []
    else
      var last := keys[|keys| - 1];
      assert keys == keys[..|keys| - 1] + [last];
      var init := FromKeys(keys[..|keys| - 1], v);
      forall k ensures Lookup(Put(init, last, v), k) == if k in keys then Some(v) else None {
        LookupPut(init, last, v, k);
      }
      Put(init, last, v)
  }

  /** With a non-empty include list every included field maps to 1 and
      `_id` maps to 0 unless it is itself included; otherwise every excluded
      field maps to 0. No other field appears. */
  function BuildProjection(includeFields: seq<string>, excludeFields: seq<string>): (r: Dict<Value>)
    ensures includeFields != [] ==>
      forall k :: Lookup(r, k) == (if k in includeFields then Some(Int(1)) else if k == "_id" then Some(Int(0)) else None)
    ensures includeFields == [] ==>
      forall k :: Lookup(r, k) == (if k in excludeFields then Some(Int(0)) else None)
  {
    if includeFields != [] then
      var p := FromKeys(includeFields, Int(1));
      if "_id" !in includeFields then
        forall k ensures Lookup(Put(p, "_id", Int(0)), k) ==
          if k in includeFields then Some(Int(1)) else if k == "_id" then Some(Int(0)) else None
        {
          LookupPut(p, "_id", Int(0), k);
        }
        Put(p, "_id", Int(0))
      else p
    else FromKeys(excludeFields, Int(0))
  }

  /** The projection is empty, so no `$project` stage is appended, exactly
      when neither an include nor an exclude list is given. */
  lemma {:induction false} ProjectionEmpty(includeFields: seq<string>, excludeFields: seq<string>)
    ensures BuildProjection(includeFields, excludeFields) == [] <==> includeFields == [] && excludeFields == []
  {
    var r := BuildProjection(includeFields, excludeFields);
    if r != [] {
      assert KeysOf(r)[0] == r[0].0;
      assert Lookup(r, r[0].0).Some?;
    }
    if includeFields != [] {
      assert Lookup(r, includeFields[0]).Some?;
    } else if excludeFields != [] {
      assert Lookup(r, excludeFields[0]).Some?;
    }
  }
}

=== FILE: request.dfy ===
/** The `BodyList` request model of `main.py`: defaults for the fields a
    client leaves out, the lower bound on `page` and `pageSize`, and the
    rule that `include` and `exclude` cannot be used together. */
module Request {
  import opened Outcomes
  import opened Dicts
  import opened Json
  import opened Pipeline

  const DefaultPage: int := 1
  const DefaultPageSize: int := 25

  /** A request body as the client sent it: every field may be missing. */
  datatype RawBody = RawBody(
    includeFields: Option<seq<string>>,
    excludeFields: Option<seq<string>>,
    page: Option<int>,
    pageSize: Option<int>,
    sort: Option<Dict<Value>>,
    filter: Option<Dict<Value>>)

  /** What a well-formed request satisfies: both page numbers are at least
      one and at most one of the field lists is non-empty. */
  predicate ValidBody(b: QueryBody) {
    b.page >= 1 && b.pageSize >= 1 && !(b.includeFields != [] && b.excludeFields != [])
  }

  /** The names of the bounded fields whose value is below one, in
      declaration order: the field errors of the validation. */
  function FieldErrors(page: int, pageSize: int): (r: seq<string>)
    ensures "page" in r <==> page < 1
    ensures "pageSize" in r <==> pageSize < 1
    ensures r == [] <==> page >= 1 && pageSize >= 1
    ensures |r| <= 2
  {
    (if page < 1 then ["page"] else []) + (if pageSize < 1 then ["pageSize"] else [])
  }

  /** Constructing a `BodyList`: missing fields take their defaults, field
      bounds are checked first (every failing field reported at once), and
      only a body that passes them is checked for include/exclude conflict. */
  function MakeBody(raw: RawBody): (r: Result<QueryBody>)
    ensures var page, pageSize := raw.page.GetOr(DefaultPage), raw.pageSize.GetOr(DefaultPageSize);
      var inc, exc := raw.includeFields.GetOr([]), raw.excludeFields.GetOr([]);
      && (r.Ok? <==> page >= 1 && pageSize >= 1 && (inc == [] || exc == []))
      && (r.Ok? ==> r.value == QueryBody(inc, exc, page, pageSize, raw.sort.GetOr([]), raw.filter.GetOr([]))
                    && ValidBody(r.value))
      && (r.Err? && (page < 1 || pageSize < 1) ==> r.error == InvalidFields(FieldErrors(page, pageSize)))
      && (r.Err? && page >= 1 && pageSize >= 1 ==> r.error == ConflictingProjection)
  {
    var body := QueryBody(raw.includeFields.GetOr([]), raw.excludeFields.GetOr([]),
                          raw.page.GetOr(DefaultPage), raw.pageSize.GetOr(DefaultPageSize),
                          raw.sort.GetOr([]), raw.filter.GetOr([]));
    var errors := FieldErrors(body.page, body.pageSize);
    if errors != [] then Err(InvalidFields(errors))
    else if body.includeFields != [] && body.excludeFields != [] then Err(ConflictingProjection)
    else Ok(body)
  }

  /** `model_dump()`: the body with every field present. */
  function Dump(b: QueryBody): RawBody {
    RawBody(Some(b.includeFields), Some(b.excludeFields), Some(b.page), Some(b.pageSize),
            Some(b.sort), Some(b.filter))
  }

  /** Constructing a body from the dump of a valid body gives it back, and
      from the dump of an invalid one fails: validation accepts exactly the
      valid bodies. */
  lemma DumpRoundTrip(b: QueryBody)
    ensures MakeBody(Dump(b)) == Ok(b) <==> ValidBody(b)
    ensures !ValidBody(b) ==> MakeBody(Dump(b)).Err?
  {
  }

  /** An empty request is valid and takes page 1 of 25 items, with no
      projection, sort or filter. */
  lemma EmptyRequestDefaults()
    ensures MakeBody(RawBody(None, None, None, None, None, None)) == Ok(QueryBody([], [], 1, 25, [], []))
  {
  }

  /** Any request naming both include and exclude fields is rejected,
      whatever its other fields. */
  lemma BothProjectionsRejected(raw: RawBody)
    requires raw.includeFields.Some? && raw.includeFields.value != []
    requires raw.excludeFields.Some? && raw.excludeFields.value != []
    ensures MakeBody(raw).Err?
    ensures MakeBody(raw).error == ConflictingProjection || MakeBody(raw).error.InvalidFields?
  {
  }
}
